=== FILE: README.md ===
# Audio–video merge worker, modelled in Dafny

The worker is a small Flask service with one real operation. `POST /merge`
receives a video URL, an audio URL, a variant name and a workflow id. It
looks the variant up in a fixed table of five presets: a voice reference,
a playback speed and a video filter. It then works through a fixed list of
steps:

1. make a work directory `/tmp/n8n_video_processing/<workflow>/<variant>`;
2. download both inputs into it;
3. re-time the audio with ffmpeg's `atempo` filter;
4. re-encode the video, with the variant's `-vf` filter unless the filter is `none`;
5. merge the two into `/tmp/downloads/<workflow>_<variant>.mp4`;
6. check that the output exists and read its size;
7. remove the work directory and answer 200.

Each step can end the request early with its own error message.

The project has seven modules:

- `Wrappers` (`wrappers.dfy`): the `Option` type.
- `Decimal` (`decimal.dfy`): how Python prints a speed such as `1.01` into the `atempo=` argument. Speeds are whole hundredths. It also has a parser that reads that text back.
- `Variants` (`variants.dfy`): the variant table and its lookup.
- `Paths` (`paths.dfy`):
  - `os.path.join` for two parts, including the rule that an absolute right part replaces the left one;
  - the work directory, the four intermediate files and the output file;
  - where these paths can collide.
- `Resolution` (`resolution.dfy`): where a path really leads once `.`, `..` and empty components are walked, and which derived paths then lie in the work directory.
- `Ffmpeg` (`ffmpeg.dfy`):
  - the three ffmpeg command lines;
  - a reading of a command line the way ffmpeg groups it into options with values, flags and output files;
  - lemmas stating what each command line asks ffmpeg to do.
- `Worker` (`worker.dfy`): the request handler. It has the following parts.
  - The disk is a `FileSystem` object whose `entries` map paths to files and directories.
  - The network, ffmpeg and the removal of the work directory form an `Env` of outcomes. Each outcome is a function of exactly the arguments the handler passes.
  - `ProcessVariant` and the methods it calls (`RunJob`, `Encode`, `Finish`) update the disk step by step, with the same early returns as the handler.
  - Their contracts tie the answer, the trace of steps that ran, and the new disk to the specification functions `Handle`, `Pipeline` and `FromStage`.
  - The lemmas about those functions state the handler's guarantees:
    - the steps run in a fixed order;
    - the first failure ends the request with its own answer;
    - the variant is checked before anything touches the disk;
    - the work directory is removed only on success;
    - a successful answer reports the output's real size;
    - no existing entry outside the work directory and the output changes; the only new entries there are the directories `os.makedirs` creates above the work directory, and they stay after success.

Four behaviours of the code are easy to misread. The model states each of them:

- **Cleanup.** The work directory is removed only on the success path (`app.py:270-274`). Every early return leaves the directory and the files already fetched in place.
- **Variant check.** An unknown variant is rejected before the work directory is made (`app.py:213-218`), so nothing is fetched for it.
- **Collisions.** Different accepted (workflow, variant) pairs do not always get their own files.
  - The output name joins the two with `_`. As a formula this is not injective: `("a_b", "c")` and `("a", "b_c")` give one name (`Paths.OutputNameCollides`). No catalog name contains `_`, though, so two accepted requests never collide this way (`Paths.CatalogOutputNamesDistinct`).
  - An absolute workflow id inside the upload folder reaches another request's output: `/tmp/downloads/x` and `x` share one output file while they work in different directories (`Paths.AbsoluteOutputCollides`).
  - `os.path.join` lets the workflow ids `a` and `a/` share one work directory, while their outputs differ (`Paths.WorkDirCollides`).
- **Path text and real location.** The disk of the model is keyed by path text. The module `Resolution` (`resolution.dfy`) resolves a path the way the operating system walks it, handling `.`, `..` and empty components. For a workflow id made of plain components, the texts resolve to themselves under the temp and upload folders, and the output stays outside the work directory. An id with `..` components can place the output inside the work directory. `Resolution.TraversalOutputInWorkDir` shows such an id: with it, the final `shutil.rmtree` (`app.py:272`) deletes the output that the answer reports.

## Model

| member | source | states |
|---|---|---|
| Variants.Lookup | app.py:29-55 | exactly the five configured names resolve; every speed lies between 0.98 and 1.02, inside atempo's 0.5–2.0 range; only `pablo` has the filter `none`; every voice id has 20 characters |
| Variants.NamesArePlain | app.py:29-55 | every variant name is a non-empty path component with no `/` and no `_`, and does not start with `.` |
| Decimal.SpeedTextRoundTrip | app.py:91 | the text Python prints for a speed, as used in `atempo={speed}`, reads back as that speed |
| Decimal.SpeedTextInjective | app.py:91 | distinct speeds give distinct `atempo` arguments |
| Paths.JoinShape | app.py:217 | `os.path.join`: an absolute right part replaces the left one; otherwise the left part is a prefix; the result ends with the right part |
| Paths.WorkDirLayout | app.py:217 | for an ordinary workflow id, the work directory is the temp folder, the workflow id and the variant name, separated by `/` |
| Paths.DerivedPathsAbsolute | app.py:217-226 | the work directory, the four intermediate files and the output file are all absolute paths |
| Paths.IntermediatesInWorkDir | app.py:221-224 | the four intermediate files lie strictly inside the work directory and are pairwise distinct |
| Paths.OutputOutsideWorkDir | app.py:217-226 | for every workflow id, the text of the output file does not lie below the text of the work directory; where the two really lead is stated in `Resolution` |
| Paths.OutputNameCollides | app.py:225-226 | the `_` join, as a formula over any two texts, is not injective: `(x_y, z)` and `(x, y_z)` name the same output file |
| Paths.CatalogOutputNamesDistinct | app.py:213-225 | for variants in the catalog, equal output names mean equal workflow ids and equal variants, because no catalog name contains `_` |
| Paths.AbsoluteOutputCollides | app.py:217-226 | for a non-empty relative workflow id `x` and a known variant, the absolute id `/tmp/downloads/x` has the same output file as `x`, but a different work directory |
| Paths.WorkDirCollides | app.py:217-226 | workflow ids `a` and `a/` share one work directory, yet their output files differ |
| Paths.AbsoluteWorkflowEscapes | app.py:217-226 | an absolute workflow id replaces the temp folder in the work directory and the upload folder in the output path: both then start with the workflow id itself |
| Resolution.PlainWorkDirResolved | app.py:217 | for a workflow id of plain names and a known variant, the work directory leads to `/tmp/n8n_video_processing`, then the id's names, then the variant |
| Resolution.PlainOutputResolved | app.py:225-226 | for a workflow id of plain names, the output leads into `/tmp/downloads`, below the id's leading names, under the id's last name joined with `_<variant>.mp4` |
| Resolution.PlainOutputOutside | app.py:217-226 | for a workflow id of plain names, the output really lies outside the work directory and the four intermediate files really lie inside it, so removing the work directory keeps the output |
| Resolution.TraversalWorkDir | app.py:217 | the workflow id `../n8n_video_processing/pablo/..` with the variant `pablo` has its work directory at `/tmp/n8n_video_processing/pablo` |
| Resolution.TraversalOutput | app.py:225-226 | for that same id and variant the output leads into that same directory, under the name `.._pablo.mp4` |
| Resolution.TraversalOutputInWorkDir | app.py:217-272 | for that id, the text of the output does not lie below the text of the work directory, but the output really lies inside the work directory, so the final removal deletes it |
| Ffmpeg.FilterArgsLayout | app.py:106-120 | both filter command lines start `ffmpeg -i <video>` and end with `-c:v libx264 -crf 23 -preset fast -y <out>`; only a filter other than `none` adds `-vf <filter>`, right after the input |
| Ffmpeg.FilterTokensValue | app.py:106-117 | the `-vf` value list is empty exactly when the filter is `none` |
| Ffmpeg.EncodeTailReading | app.py:110-111 | the shared encoding tail reads as the options `-c:v libx264`, `-crf 23`, `-preset fast`, the flag `-y` and the output |
| Ffmpeg.SpeedReading | app.py:89-93 | the speed command line groups into the input, the `atempo` audio filter, `-y` and the output |
| Ffmpeg.SpeedArgsMeaning | app.py:89-93 | the speed run's only input is the audio; its only audio filter asks for exactly the variant's speed; it has no video filter, overwrites, and writes only the output |
| Ffmpeg.FilterReading | app.py:106-120 | the filter command line groups into the input, the optional `-vf`, the encoding options, `-y` and the output |
| Ffmpeg.FilterArgsMeaning | app.py:106-120 | the filter run's only input is the video; `-vf` appears exactly when the filter is not `none`, and then with the filter text verbatim; it has no audio filter and no stream map, and writes only the output |
| Ffmpeg.MergeReading | app.py:134-144 | the merge command line groups into two inputs, two codec options, two stream maps, `-shortest`, `-y` and the output |
| Ffmpeg.MergeArgsMeaning | app.py:134-144 | the merge reads the video as input 0 and the audio as input 1; it maps exactly `0:v:0` and `1:a:0`, copies the video, encodes the audio as AAC and passes `-shortest`; it has no filters and writes only the output |
| Worker.FileSystem.Exists | app.py:260 | `os.path.exists` is true exactly for paths on disk |
| Worker.FileSystem.GetSize | app.py:263 | `os.path.getsize` gives the size recorded for the path |
| Worker.FileSystem.MakeDirs | app.py:218 | `os.makedirs(exist_ok=True)` fails exactly when a file stands at the path or at a directory above it, and then changes nothing; otherwise it adds the path and every missing directory above it as directories and keeps every existing entry |
| Worker.FileSystem.RemoveTree | app.py:272 | `shutil.rmtree` removes the directory and everything below it, and nothing else |
| Worker.DownloadFile | app.py:57-68 | a download succeeds exactly when the fetch reports success; the disk changes only at the destination |
| Worker.RunFfmpeg | app.py:94-101 | an ffmpeg run succeeds exactly when it exits with code 0 without raising; the disk changes only at its output path |
| Worker.AdjustAudioSpeed | app.py:85-101 | runs the speed command line, succeeding exactly on a clean exit, and writes only the re-timed audio |
| Worker.ApplyVideoFilter | app.py:103-129 | runs the filter command line, succeeding exactly on a clean exit, and writes only the filtered video |
| Worker.MergeAudioVideo | app.py:131-155 | runs the merge command line, succeeding exactly on a clean exit, and writes only the output |
| Worker.JobPlan | app.py:208-242 | the plan for a request uses the table entry of its variant and the request's paths, carries the three command lines built from them, and its speed lies in atempo's range |
| Worker.JobLayoutSeparated | app.py:217-226 | for a known variant, the texts of the four intermediate files lie in the work directory and the text of the output does not; for a workflow id of plain names, this also holds for where the paths really lead |
| Worker.JobCommands | app.py:240-256 | each ffmpeg run reads what earlier steps wrote: speed reads the downloaded audio at the variant's speed; filter reads the downloaded video, with `-vf` exactly for a real filter; merge reads the filtered video, then the re-timed audio, and writes the output |
| Worker.FromStage | app.py:230-283 | from step `i` on, the request ends after at least that step and after at most all ten |
| Worker.Pipeline | app.py:216-283 | after the variant check, between three and ten planned steps run |
| Worker.FromStageRan | app.py:230-261 | every step before the last one that ran passed, and a request that ended before the output check ended on a failing step |
| Worker.FromStageAnswer | app.py:230-283 | the answer is 200 exactly when all ten steps ran; otherwise it is the failure of the last step that ran, with that step's own message |
| Worker.FromStageOutside | app.py:230-274 | the steps touch nothing outside the work directory and the output; a request that ends early keeps the work directory |
| Worker.FromStageOutput | app.py:259-283 | a failed output check means the output is missing; on success the output exists and the answer carries its size; after a clean removal nothing is left under the work directory |
| Worker.PipelineAnswer | app.py:216-283 | the steps run in order, and the first failure ends the request with its own answer. If the work directory cannot be made, the answer is 500; a failed download, ffmpeg run or output check answers 400 with its fixed message; success is 200 |
| Worker.PipelineDisk | app.py:216-283 | the request stops at `os.makedirs` exactly when a file blocks the work directory, and then nothing changes. Every later failure keeps the work directory. On success the output exists with the reported size, and nothing is left under the work directory unless its removal failed. Every entry outside the work directory and the output keeps its value, and the only new entries there are directories above the work directory, which stay after a successful request |
| Worker.MadeOutside | app.py:218 | after `os.makedirs` succeeds, the work directory is a directory, every earlier entry is unchanged, and every new entry is a directory at the work directory or above it |
| Worker.RunJob | app.py:216-238 | makes the work directory and downloads both inputs, with the same answer, steps and disk as `Pipeline` |
| Worker.Encode | app.py:240-257 | the three ffmpeg runs, with the same answer, steps and disk as `FromStage` from the speed step |
| Worker.Finish | app.py:259-283 | the output check, the size read and the removal, with the same answer and disk as `FromStage` at the output check |
| Worker.ProcessVariant | app.py:187-289 | the whole handler: its answer, the steps that ran and the disk afterwards are the ones `Handle` describes |
| Worker.HandleRejects | app.py:200-214 | a body that is not JSON answers 500 before validation, and a JSON number, boolean or null answers 500 at validation. An object, array or string that lacks one of the four names answers 400 "Missing required fields" after validation alone; an array or string that has all four answers 500. An object with an unknown variant answers 400 "Unknown variant: <name>" after validation and the variant check. None of these touches the disk |
| Worker.HandleKnown | app.py:213-283 | a complete object request for a known variant looks the variant up and runs its plan: the paths are separated, the answer and the disk are the plan's, and the trace lists the plan's steps in order, up to the one that ended the request |

## Left out

- Downloads: streaming in 8192-byte chunks, the 300-second timeout, and the HTTP status check (`app.py:57-68`). A download is an outcome supplied by `Env.fetch`: whether it succeeded, and how many bytes it left.
- The ffmpeg processes themselves and their 300 and 600-second timeouts. An ffmpeg run is an outcome supplied by `Env.ffmpeg`: an exit code or an exception, and the bytes it left at its output.
- `get_video_duration` (`app.py:70-83`): the handler never calls it, and it parses a float from ffprobe's output.
- The routes `/`, `/health`, `/variants` and `/download/<filename>` (`app.py:157-185`, `app.py:291-310`): these are framework code and file serving.
- Logging, the `timestamp` field and the `download_url` built from the request's host: these depend on the clock and the environment. The success body keeps the variant, the output path and the file size.
- JSON values that are not strings. An object's fields are strings, and of an array only the string elements are kept, since only they can equal a field name. A number as `workflow_id` would make `os.path.join` raise, and the catch-all 500 would answer; that case is not modelled.
- Worker.ProcessVariant: the 500 answer carries `str(e)` in the source; the model answers `Unexpected` without the exception's text.
- Worker.FileSystem.MakeDirs: a file at any directory above the path blocks it, while `os.makedirs` looks only as far up as the nearest existing directory. The two differ only on a disk that has entries below a file, which no real disk has. Directories above the path are found by cutting the text at each `/`, so doubled slashes, which `os.path.split` strips, are not modelled. `UPLOAD_FOLDER` and `TEMP_FOLDER` are made at start-up (`app.py:21-22`); the model starts from any disk.
- Worker.PipelineDisk: the disk is keyed by path text, so "outside the work directory" and "the output" are statements about texts. They match where the paths really lead for a workflow id of plain names (`Resolution.PlainOutputOutside`). For an id with `..`, `.` or empty components, or an absolute id, they need not: `Resolution.TraversalOutputInWorkDir` gives an id whose output really lies inside the work directory, where `shutil.rmtree` deletes it after the answer has reported it.
- Worker.JobLayoutSeparated: for an id that is not made of plain names, it states the separation of the texts only, for the reason given for `Worker.PipelineDisk`.
- Paths.OutputOutsideWorkDir: states the separation of the texts only, for the reason given for `Worker.PipelineDisk`.
- Worker.Finish: a failing `shutil.rmtree` is modelled as removing nothing. In reality it may remove part of the tree before it raises. `Env.removeFails` says whether it raises.
- Other exceptions inside the handler are not modelled, such as a full disk or the output vanishing between the existence check and `getsize`. Only the handler's own steps change the disk.
- Decimal.SpeedTextRoundTrip: covers speeds with at most two decimals, printed as Python prints such floats. Float arithmetic and the general float printing algorithm are not modelled.
- Ffmpeg.SpeedArgsMeaning, Ffmpeg.FilterArgsMeaning and Ffmpeg.MergeArgsMeaning: they read a command line using only the value-taking options this worker passes, not ffmpeg's full option table. Bare flags such as `-y` and `-shortest` are shown by their presence among the grouped words.
- Concurrent requests: requests for the same (workflow, variant) share paths, and the code has no locking. The collision lemmas show which requests share paths; interleavings are not modelled.

=== FILE: decimal.dfy ===
/**
 * Decimal text of the variant speeds.
 *
 * A speed is kept as a whole number of hundredths (1.01 is 101). The worker
 * interpolates the Python float into the `atempo=` filter argument, so its text
 * is the float's shortest round-trip representation: the integer part, a dot,
 * and one or two fractional digits with trailing zeros dropped ("1.0", "1.01",
 * "0.99").
 */
module Decimal {
  import opened Wrappers

  predicate IsDigit(c: char) { '0' <= c <= '9' }

  predicate AllDigits(s: string) { forall i :: 0 <= i < |s| ==> IsDigit(s[i]) }

  function DigitChar(d: nat): (c: char)
    requires d < 10
    ensures IsDigit(c) && c as int - '0' as int == d
  {
    (d + '0' as int) as char
  }

  function DigitValue(c: char): nat
    requires IsDigit(c)
  {
    c as int - '0' as int
  }

  /** Decimal digits of `n`, most significant first, with no leading zeros. */
  function NatText(n: nat): (s: string)
    ensures |s| > 0 && AllDigits(s)
    ensures n < 10 <==> |s| == 1
    decreases n
  {
    if n < 10 then [DigitChar(n)] else NatText(n / 10) + [DigitChar(n % 10)]
  }

  /** The value of a string of decimal digits. */
  function DigitsValue(s: string): nat
    requires AllDigits(s)
    decreases |s|
  {
    if s == [] then 0 else 10 * DigitsValue(s[..|s| - 1]) + DigitValue(s[|s| - 1])
  }

  lemma {:induction false} NatTextValue(n: nat)
    ensures DigitsValue(NatText(n)) == n
    decreases n
  {
    var s := NatText(n);
    if n >= 10 {
      NatTextValue(n / 10);
      assert s[..|s| - 1] == NatText(n / 10);
    }
  }

  function ParseNat(s: string): (r: Option<nat>)
    ensures r.Some? <==> s != [] && AllDigits(s)
  {
    if s != [] && AllDigits(s) then Some(DigitsValue(s)) else None
  }

  /** Fractional digits of a speed: "0" for a whole number, otherwise without trailing zero. */
  function FractionText(f: nat): (s: string)
    requires f < 100
    ensures AllDigits(s) && 1 <= |s| <= 2
    ensures |s| == 1 <==> f % 10 == 0
  {
    if f == 0 then "0"
    else if f % 10 == 0 then [DigitChar(f / 10)]
    else [DigitChar(f / 10), DigitChar(f % 10)]
  }

  /** The text Python gives for the float `h / 100`. */
  function SpeedText(h: nat): string
  {
    NatText(h / 100) + "." + FractionText(h % 100)
  }

  /** Reads back a speed written as digits, a dot and one or two fractional digits. */
  function ParseSpeed(s: string): Option<nat>
  {
    if |s| >= 3 && s[|s| - 2] == '.' && IsDigit(s[|s| - 1]) then
      match ParseNat(s[..|s| - 2])
      case Some(whole) => Some(100 * whole + 10 * DigitValue(s[|s| - 1]))
      case None => None
    else if |s| >= 4 && s[|s| - 3] == '.' && AllDigits(s[|s| - 2..]) then
      match ParseNat(s[..|s| - 3])
      case Some(whole) => Some(100 * whole + DigitsValue(s[|s| - 2..]))
      case None => None
    else None
  }

  lemma FractionValue(f: nat)
    requires f < 100
    ensures var t := FractionText(f);
      (|t| == 1 ==> 10 * DigitValue(t[0]) == f) && (|t| == 2 ==> DigitsValue(t) == f)
  {
    var t := FractionText(f);
    if |t| == 2 {
      assert t[..1] == [t[0]];
      assert DigitsValue([t[0]]) == DigitValue(t[0]);
    }
  }

  /** The speed text of every speed reads back as that speed. */
  lemma {:induction false} SpeedTextRoundTrip(h: nat)
    ensures ParseSpeed(SpeedText(h)) == Some(h)
  {
    var w, t := NatText(h / 100), FractionText(h % 100);
    var s := SpeedText(h);
    assert s == w + "." + t;
    NatTextValue(h / 100);
    FractionValue(h % 100);
    if |t| == 1 {
      assert s[|s| - 2] == '.' && s[|s| - 1] == t[0];
      assert s[..|s| - 2] == w;
    } else {
      assert s[|s| - 2] == t[0] && !('.' == t[0]);
      assert s[|s| - 3] == '.';
      assert s[..|s| - 3] == w;
      assert s[|s| - 2..] == t;
    }
  }

  /** Distinct speeds give distinct `atempo` arguments. */
  lemma SpeedTextInjective(a: nat, b: nat)
    requires SpeedText(a) == SpeedText(b)
    ensures a == b
  {
    SpeedTextRoundTrip(a);
    SpeedTextRoundTrip(b);
  }
}

=== FILE: ffmpeg.dfy ===
/**
 * The three ffmpeg command lines the worker builds, and a reading of a
 * command line the way ffmpeg groups it: an option that takes a value
 * swallows the next word, a bare flag stands alone, and any other word
 * names an output file.
 */
module Ffmpeg {
  import opened Wrappers
  import opened Decimal
  import opened Variants

  /** Options used by the worker that take a value. */
  const ValuedOptions: set<string> := {"-i", "-af", "-vf", "-c:v", "-c:a", "-crf", "-preset", "-map"}

  predicate IsOptionWord(w: string) { |w| > 0 && w[0] == '-' }

  datatype Token = Opt(name: string, value: string) | Flag(name: string) | Target(path: string)

  /** Groups the words after the program name into options, flags and output files. */
  function Tokens(args: seq<string>): seq<Token>
    decreases |args|
  {
    if args == [] then []
    else if args[0] in ValuedOptions && |args| >= 2 then [Opt(args[0], args[1])] + Tokens(args[2..])
    else if IsOptionWord(args[0]) then [Flag(args[0])] + Tokens(args[1..])
    else [Target(args[0])] + Tokens(args[1..])
  }

  /** The values given to option `name`, in order. */
  function Values(ts: seq<Token>, name: string): seq<string>
  {
    if ts == [] then []
    else (if ts[0].Opt? && ts[0].name == name then [ts[0].value] else []) + Values(ts[1..], name)
  }

  /** The output files named. */
  function Targets(ts: seq<Token>): seq<string>
  {
    if ts == [] then [] else (if ts[0].Target? then [ts[0].path] else []) + Targets(ts[1..])
  }

  /** The command line of an ffmpeg run, grouped. */
  function Reading(argv: seq<string>): seq<Token>
  {
    if argv == [] then [] else Tokens(argv[1..])
  }

  /** The speed an `atempo=` audio filter argument asks for. */
  function AtempoSpeed(arg: string): Option<nat>
  {
    if |arg| >= 7 && arg[..7] == "atempo=" then ParseSpeed(arg[7..]) else None
  }

  /** `adjust_audio_speed`: re-time the audio by the variant's speed. */
  function SpeedArgs(audioPath: string, speed: nat, outputPath: string): seq<string>
  {
    ["ffmpeg", "-i", audioPath, "-af", "atempo=" + SpeedText(speed), "-y", outputPath]
  }

  /** The encoding settings every filter run ends with. */
  const EncodeTail: seq<string> := ["-c:v", "libx264", "-crf", "23", "-preset", "fast", "-y"]

  /** `apply_video_filter`: re-encode the video, with `-vf` only for a real filter. */
  function FilterArgs(videoPath: string, filterSpec: string, outputPath: string): seq<string>
  {
    if filterSpec == NoFilter then
      ["ffmpeg", "-i", videoPath, "-c:v", "libx264", "-crf", "23", "-preset", "fast", "-y", outputPath]
    else
      ["ffmpeg", "-i", videoPath, "-vf", filterSpec, "-c:v", "libx264", "-crf", "23", "-preset", "fast", "-y", outputPath]
  }

  /**
   * Both forms of the filter command start with the input and end with the
   * same encoding tail and output path; only a real filter adds `-vf` and
   * the filter text, right after the input.
   */
  lemma FilterArgsLayout(videoPath: string, filterSpec: string, outputPath: string)
    ensures var r := FilterArgs(videoPath, filterSpec, outputPath);
      && |r| == (if filterSpec == NoFilter then 11 else 13)
      && r[..3] == ["ffmpeg", "-i", videoPath]
      && (filterSpec != NoFilter ==> r[3] == "-vf" && r[4] == filterSpec)
      && r[|r| - 8..] == EncodeTail + [outputPath]
  {
  }

  /** `merge_audio_video`: copy video from input 0, encode audio from input 1, stop at the shorter. */
  function MergeArgs(videoPath: string, audioPath: string, outputPath: string): seq<string>
  {
    ["ffmpeg", "-i", videoPath, "-i", audioPath, "-c:v", "copy", "-c:a", "aac",
     "-map", "0:v:0", "-map", "1:a:0", "-shortest", "-y", outputPath]
  }

  lemma TokensOpt(name: string, value: string, rest: seq<string>)
    requires name in ValuedOptions
    ensures Tokens([name, value] + rest) == [Opt(name, value)] + Tokens(rest)
  {
    assert ([name, value] + rest)[2..] == rest;
  }

  lemma TokensFlag(name: string, rest: seq<string>)
    requires name !in ValuedOptions && IsOptionWord(name)
    ensures Tokens([name] + rest) == [Flag(name)] + Tokens(rest)
  {
    assert ([name] + rest)[1..] == rest;
  }

  lemma TokensTarget(path: string)
    requires !IsOptionWord(path)
    ensures Tokens([path]) == [Target(path)]
  {
    assert [path][1..] == [];
  }

  /** Tokens that give no value to `name` leave the values of what follows them unchanged. */
  lemma {:induction false} ValuesSkip(a: seq<Token>, b: seq<Token>, name: string)
    requires forall i | 0 <= i < |a| :: !(a[i].Opt? && a[i].name == name)
    ensures Values(a + b, name) == Values(b, name)
  {
    if a == [] {
      assert a + b == b;
    } else {
      assert (a + b)[0] == a[0] && (a + b)[1..] == a[1..] + b;
      ValuesSkip(a[1..], b, name);
    }
  }

  /** Tokens that name no output leave the outputs of what follows them unchanged. */
  lemma {:induction false} TargetsSkip(a: seq<Token>, b: seq<Token>)
    requires forall i | 0 <= i < |a| :: !a[i].Target?
    ensures Targets(a + b) == Targets(b)
  {
    if a == [] {
      assert a + b == b;
    } else {
      assert (a + b)[0] == a[0] && (a + b)[1..] == a[1..] + b;
      TargetsSkip(a[1..], b);
    }
  }

  /** An option token in front gives its value, if it is the one asked for. */
  lemma ValuesCons(t: Token, rest: seq<Token>, name: string)
    requires t.Opt?
    ensures Values([t] + rest, name) == (if t.name == name then [t.value] else []) + Values(rest, name)
  {
    assert ([t] + rest)[0] == t && ([t] + rest)[1..] == rest;
  }

  lemma TargetsOne(path: string)
    ensures Targets([Target(path)]) == [path]
  {
    assert [Target(path)][1..] == [];
  }

  /** The encoding tail and output path, grouped. */
  function EncodeTailTokens(outputPath: string): seq<Token>
  {
    [Opt("-c:v", "libx264"), Opt("-crf", "23"), Opt("-preset", "fast"), Flag("-y"), Target(outputPath)]
  }

  lemma EncodeTailReading(outputPath: string)
    requires !IsOptionWord(outputPath)
    ensures Tokens(EncodeTail + [outputPath]) == EncodeTailTokens(outputPath)
  {
    TokensTarget(outputPath);
    TokensFlag("-y", [outputPath]);
    TokensOpt("-preset", "fast", ["-y", outputPath]);
    TokensOpt("-crf", "23", ["-preset", "fast", "-y", outputPath]);
    TokensOpt("-c:v", "libx264", ["-crf", "23", "-preset", "fast", "-y", outputPath]);
    assert EncodeTail + [outputPath] == ["-c:v", "libx264"] + ["-crf", "23", "-preset", "fast", "-y", outputPath];
    assert ["-crf", "23", "-preset", "fast", "-y", outputPath] == ["-crf", "23"] + ["-preset", "fast", "-y", outputPath];
    assert ["-preset", "fast", "-y", outputPath] == ["-preset", "fast"] + ["-y", outputPath];
    assert ["-y", outputPath] == ["-y"] + [outputPath];
  }

  /** How ffmpeg groups the speed run's words. */
  lemma SpeedReading(audioPath: string, speed: nat, outputPath: string)
    requires !IsOptionWord(outputPath)
    ensures Reading(SpeedArgs(audioPath, speed, outputPath))
         == [Opt("-i", audioPath), Opt("-af", "atempo=" + SpeedText(speed)), Flag("-y"), Target(outputPath)]
  {
    var af := "atempo=" + SpeedText(speed);
    var args := SpeedArgs(audioPath, speed, outputPath);
    var w3 := ["-y"] + [outputPath];
    var w2 := ["-af", af] + w3;
    assert args[1..] == ["-i", audioPath] + w2;
    TokensTarget(outputPath);
    TokensFlag("-y", [outputPath]);
    TokensOpt("-af", af, w3);
    TokensOpt("-i", audioPath, w2);
  }

  /**
   * The speed run reads one input, the audio, and writes one output; its
   * only audio filter is `atempo`, with an argument that reads back as the
   * speed, and it has no video filter.
   */
  lemma {:induction false} SpeedArgsMeaning(audioPath: string, speed: nat, outputPath: string)
    requires !IsOptionWord(outputPath)
    ensures var ts := Reading(SpeedArgs(audioPath, speed, outputPath));
      && Values(ts, "-i") == [audioPath]
      && |Values(ts, "-af")| == 1
      && AtempoSpeed(Values(ts, "-af")[0]) == Some(speed)
      && Values(ts, "-vf") == [] && Flag("-y") in ts && Targets(ts) == [outputPath]
  {
    SpeedReading(audioPath, speed, outputPath);
    var af := "atempo=" + SpeedText(speed);
    SpeedValues(audioPath, af, outputPath);
    SpeedTarget(audioPath, af, outputPath);
    AtempoRoundTrip(speed);
  }

  /** The speed run's only input is the audio, its only audio filter `af`, and it has no video filter. */
  lemma SpeedValues(audioPath: string, af: string, outputPath: string)
    ensures var ts := [Opt("-i", audioPath), Opt("-af", af), Flag("-y"), Target(outputPath)];
      Values(ts, "-i") == [audioPath] && Values(ts, "-af") == [af] && Values(ts, "-vf") == []
  {
    var rest := [Flag("-y"), Target(outputPath)];
    assert [Opt("-i", audioPath), Opt("-af", af), Flag("-y"), Target(outputPath)]
        == [Opt("-i", audioPath)] + ([Opt("-af", af)] + rest);
    assert rest + [] == rest;
    ValuesSkip(rest, [], "-i");
    ValuesSkip(rest, [], "-af");
    ValuesSkip(rest, [], "-vf");
    ValuesCons(Opt("-af", af), rest, "-i");
    ValuesCons(Opt("-af", af), rest, "-af");
    ValuesCons(Opt("-af", af), rest, "-vf");
    ValuesCons(Opt("-i", audioPath), [Opt("-af", af)] + rest, "-i");
    ValuesCons(Opt("-i", audioPath), [Opt("-af", af)] + rest, "-af");
    ValuesCons(Opt("-i", audioPath), [Opt("-af", af)] + rest, "-vf");
  }

  /** The speed run writes one output. */
  lemma SpeedTarget(audioPath: string, af: string, outputPath: string)
    ensures Targets([Opt("-i", audioPath), Opt("-af", af), Flag("-y"), Target(outputPath)]) == [outputPath]
  {
    TargetsOne(outputPath);
    TargetsSkip([Opt("-i", audioPath), Opt("-af", af), Flag("-y")], [Target(outputPath)]);
    assert [Opt("-i", audioPath), Opt("-af", af), Flag("-y"), Target(outputPath)]
        == [Opt("-i", audioPath), Opt("-af", af), Flag("-y")] + [Target(outputPath)];
  }

  /** The `atempo=` argument built from a speed reads back as that speed. */
  lemma AtempoRoundTrip(speed: nat)
    ensures AtempoSpeed("atempo=" + SpeedText(speed)) == Some(speed)
  {
    var af := "atempo=" + SpeedText(speed);
    assert af[..7] == "atempo=" && af[7..] == SpeedText(speed);
    SpeedTextRoundTrip(speed);
  }

  /** The video filter's tokens: none for "none", otherwise `-vf` with the filter. */
  function FilterTokens(filterSpec: string): seq<Token>
  {
    if filterSpec == NoFilter then [] else [Opt("-vf", filterSpec)]
  }

  /** The `-vf` values a filter run should carry: none for "none", otherwise the filter itself. */
  function FilterTokensValue(filterSpec: string): (r: seq<string>)
    ensures r == [] <==> filterSpec == NoFilter
  {
    if filterSpec == NoFilter then [] else [filterSpec]
  }

  /**
   * How ffmpeg groups the filter run's words: the input, the video filter
   * when there is one, then the same encoding settings and output path.
   */
  lemma FilterReading(videoPath: string, filterSpec: string, outputPath: string)
    requires !IsOptionWord(outputPath)
    ensures Reading(FilterArgs(videoPath, filterSpec, outputPath))
         == [Opt("-i", videoPath)] + FilterTokens(filterSpec) + EncodeTailTokens(outputPath)
  {
    var tail := EncodeTail + [outputPath];
    var middle := if filterSpec == NoFilter then [] else ["-vf", filterSpec];
    var args := FilterArgs(videoPath, filterSpec, outputPath);
    assert args[1..] == ["-i", videoPath] + (middle + tail);
    EncodeTailReading(outputPath);
    if filterSpec != NoFilter {
      TokensOpt("-vf", filterSpec, tail);
    } else {
      assert middle + tail == tail;
    }
    TokensOpt("-i", videoPath, middle + tail);
  }

  /**
   * The filter run reads one input, the video, and writes one output; it
   * carries `-vf` exactly when the filter is not "none", and then with the
   * filter text verbatim; it has no audio filter and maps no streams.
   */
  lemma {:induction false} FilterArgsMeaning(videoPath: string, filterSpec: string, outputPath: string)
    requires !IsOptionWord(outputPath)
    ensures var ts := Reading(FilterArgs(videoPath, filterSpec, outputPath));
      && Values(ts, "-i") == [videoPath]
      && Values(ts, "-vf") == FilterTokensValue(filterSpec)
      && Values(ts, "-af") == [] && Values(ts, "-map") == []
      && Targets(ts) == [outputPath]
  {
    FilterReading(videoPath, filterSpec, outputPath);
    var rest := FilterTokens(filterSpec) + EncodeTailTokens(outputPath);
    assert [Opt("-i", videoPath)] + FilterTokens(filterSpec) + EncodeTailTokens(outputPath)
        == [Opt("-i", videoPath)] + rest;
    FilterRestOthers(filterSpec, outputPath);
    FilterRestVf(filterSpec, outputPath);
    ValuesCons(Opt("-i", videoPath), rest, "-i");
    ValuesCons(Opt("-i", videoPath), rest, "-vf");
    ValuesCons(Opt("-i", videoPath), rest, "-af");
    ValuesCons(Opt("-i", videoPath), rest, "-map");
    FilterTarget(videoPath, filterSpec, outputPath);
  }

  /** After the input there is no other input, audio filter or stream map. */
  lemma FilterRestOthers(filterSpec: string, outputPath: string)
    ensures var rest := FilterTokens(filterSpec) + EncodeTailTokens(outputPath);
      Values(rest, "-i") == [] && Values(rest, "-af") == [] && Values(rest, "-map") == []
  {
    var rest := FilterTokens(filterSpec) + EncodeTailTokens(outputPath);
    assert rest + [] == rest;
    ValuesSkip(rest, [], "-i");
    ValuesSkip(rest, [], "-af");
    ValuesSkip(rest, [], "-map");
  }

  /** After the input, the filter, if there is one, is the only `-vf`. */
  lemma FilterRestVf(filterSpec: string, outputPath: string)
    ensures Values(FilterTokens(filterSpec) + EncodeTailTokens(outputPath), "-vf") == FilterTokensValue(filterSpec)
  {
    var tail := EncodeTailTokens(outputPath);
    assert tail + [] == tail;
    ValuesSkip(tail, [], "-vf");
    if filterSpec == NoFilter {
      assert FilterTokens(filterSpec) + tail == tail;
    } else {
      ValuesCons(Opt("-vf", filterSpec), tail, "-vf");
    }
  }

  /** The filter run writes one output. */
  lemma FilterTarget(videoPath: string, filterSpec: string, outputPath: string)
    ensures Targets([Opt("-i", videoPath)] + FilterTokens(filterSpec) + EncodeTailTokens(outputPath)) == [outputPath]
  {
    var ts := [Opt("-i", videoPath)] + FilterTokens(filterSpec) + EncodeTailTokens(outputPath);
    TargetsOne(outputPath);
    TargetsSkip(ts[..|ts| - 1], [Target(outputPath)]);
    assert ts == ts[..|ts| - 1] + [Target(outputPath)];
  }

  /** The merge run's words, grouped as ffmpeg groups them. */
  function MergeTokens(videoPath: string, audioPath: string, outputPath: string): seq<Token>
  {
    [Opt("-i", videoPath), Opt("-i", audioPath)]
      + ([Opt("-c:v", "copy"), Opt("-c:a", "aac")]
      + ([Opt("-map", "0:v:0"), Opt("-map", "1:a:0")]
      + [Flag("-shortest"), Flag("-y"), Target(outputPath)]))
  }

  /** Two valued options in a row. */
  lemma TokensOptPair(n1: string, v1: string, n2: string, v2: string, rest: seq<string>)
    requires n1 in ValuedOptions && n2 in ValuedOptions
    ensures Tokens([n1, v1, n2, v2] + rest) == [Opt(n1, v1), Opt(n2, v2)] + Tokens(rest)
  {
    TokensOpt(n2, v2, rest);
    assert [n1, v1, n2, v2] + rest == [n1, v1] + ([n2, v2] + rest);
    TokensOpt(n1, v1, [n2, v2] + rest);
  }

  /** The merge run's closing flags and output path, grouped. */
  lemma MergeFlagsReading(outputPath: string)
    requires !IsOptionWord(outputPath)
    ensures Tokens(["-shortest", "-y", outputPath]) == [Flag("-shortest"), Flag("-y"), Target(outputPath)]
  {
    TokensTarget(outputPath);
    TokensFlag("-y", [outputPath]);
    assert ["-y", outputPath] == ["-y"] + [outputPath];
    TokensFlag("-shortest", ["-y", outputPath]);
    assert ["-shortest", "-y", outputPath] == ["-shortest"] + ["-y", outputPath];
  }

  /** The merge run's valued options, grouped in pairs ahead of `rest`. */
  lemma MergeOptionsReading(videoPath: string, audioPath: string, rest: seq<string>)
    ensures Tokens(["-i", videoPath, "-i", audioPath] + (["-c:v", "copy", "-c:a", "aac"] + (["-map", "0:v:0", "-map", "1:a:0"] + rest)))
         == [Opt("-i", videoPath), Opt("-i", audioPath)]
          + ([Opt("-c:v", "copy"), Opt("-c:a", "aac")] + ([Opt("-map", "0:v:0"), Opt("-map", "1:a:0")] + Tokens(rest)))
  {
    var w3 := ["-map", "0:v:0", "-map", "1:a:0"] + rest;
    var w2 := ["-c:v", "copy", "-c:a", "aac"] + w3;
    TokensOptPair("-map", "0:v:0", "-map", "1:a:0", rest);
    TokensOptPair("-c:v", "copy", "-c:a", "aac", w3);
    TokensOptPair("-i", videoPath, "-i", audioPath, w2);
  }

  lemma MergeReading(videoPath: string, audioPath: string, outputPath: string)
    requires !IsOptionWord(outputPath)
    ensures Reading(MergeArgs(videoPath, audioPath, outputPath)) == MergeTokens(videoPath, audioPath, outputPath)
  {
    var w4 := ["-shortest", "-y", outputPath];
    MergeFlagsReading(outputPath);
    MergeOptionsReading(videoPath, audioPath, w4);
    var args := MergeArgs(videoPath, audioPath, outputPath);
    assert args[1..] == ["-i", videoPath, "-i", audioPath] + (["-c:v", "copy", "-c:a", "aac"] + (["-map", "0:v:0", "-map", "1:a:0"] + w4));
  }

  /** The merge run reads the video, then the audio. */
  lemma MergeInputs(videoPath: string, audioPath: string, outputPath: string)
    ensures Values(MergeTokens(videoPath, audioPath, outputPath), "-i") == [videoPath, audioPath]
  {
    var inputs := [Opt("-i", videoPath), Opt("-i", audioPath)];
    var codecs := [Opt("-c:v", "copy"), Opt("-c:a", "aac")];
    var maps := [Opt("-map", "0:v:0"), Opt("-map", "1:a:0")];
    var closing := [Flag("-shortest"), Flag("-y"), Target(outputPath)];
    var rest := codecs + (maps + closing);
    assert inputs + rest == [Opt("-i", videoPath)] + ([Opt("-i", audioPath)] + rest);
    assert rest + [] == rest;
    ValuesSkip(rest, [], "-i");
    ValuesCons(Opt("-i", audioPath), rest, "-i");
    ValuesCons(Opt("-i", videoPath), [Opt("-i", audioPath)] + rest, "-i");
  }

  /** It maps video stream 0 of input 0 and audio stream 0 of input 1, and nothing else. */
  lemma MergeMaps(videoPath: string, audioPath: string, outputPath: string)
    ensures Values(MergeTokens(videoPath, audioPath, outputPath), "-map") == ["0:v:0", "1:a:0"]
  {
    var inputs := [Opt("-i", videoPath), Opt("-i", audioPath)];
    var codecs := [Opt("-c:v", "copy"), Opt("-c:a", "aac")];
    var maps := [Opt("-map", "0:v:0"), Opt("-map", "1:a:0")];
    var closing := [Flag("-shortest"), Flag("-y"), Target(outputPath)];
    assert inputs + (codecs + (maps + closing)) == (inputs + codecs) + (maps + closing);
    assert maps + closing == [Opt("-map", "0:v:0")] + ([Opt("-map", "1:a:0")] + closing);
    assert closing + [] == closing;
    ValuesSkip(inputs + codecs, maps + closing, "-map");
    ValuesSkip(closing, [], "-map");
    ValuesCons(Opt("-map", "1:a:0"), closing, "-map");
    ValuesCons(Opt("-map", "0:v:0"), [Opt("-map", "1:a:0")] + closing, "-map");
  }

  /** The video is copied, not re-encoded. */
  lemma MergeVideoCodec(videoPath: string, audioPath: string, outputPath: string)
    ensures Values(MergeTokens(videoPath, audioPath, outputPath), "-c:v") == ["copy"]
  {
    var inputs := [Opt("-i", videoPath), Opt("-i", audioPath)];
    var codecs := [Opt("-c:v", "copy"), Opt("-c:a", "aac")];
    var maps := [Opt("-map", "0:v:0"), Opt("-map", "1:a:0")];
    var closing := [Flag("-shortest"), Flag("-y"), Target(outputPath)];
    var rest := [Opt("-c:a", "aac")] + (maps + closing);
    assert inputs + (codecs + (maps + closing)) == inputs + ([Opt("-c:v", "copy")] + rest);
    assert rest + [] == rest;
    ValuesSkip(inputs, [Opt("-c:v", "copy")] + rest, "-c:v");
    ValuesSkip(rest, [], "-c:v");
    ValuesCons(Opt("-c:v", "copy"), rest, "-c:v");
  }

  /** The audio is encoded as AAC. */
  lemma MergeAudioCodec(videoPath: string, audioPath: string, outputPath: string)
    ensures Values(MergeTokens(videoPath, audioPath, outputPath), "-c:a") == ["aac"]
  {
    var inputs := [Opt("-i", videoPath), Opt("-i", audioPath)];
    var codecs := [Opt("-c:v", "copy"), Opt("-c:a", "aac")];
    var maps := [Opt("-map", "0:v:0"), Opt("-map", "1:a:0")];
    var closing := [Flag("-shortest"), Flag("-y"), Target(outputPath)];
    var front := inputs + [Opt("-c:v", "copy")];
    var rest := maps + closing;
    assert inputs + (codecs + rest) == front + ([Opt("-c:a", "aac")] + rest);
    assert rest + [] == rest;
    ValuesSkip(front, [Opt("-c:a", "aac")] + rest, "-c:a");
    ValuesSkip(rest, [], "-c:a");
    ValuesCons(Opt("-c:a", "aac"), rest, "-c:a");
  }

  /** Neither filter is given. */
  lemma MergeNoFilters(videoPath: string, audioPath: string, outputPath: string)
    ensures Values(MergeTokens(videoPath, audioPath, outputPath), "-vf") == [] && Values(MergeTokens(videoPath, audioPath, outputPath), "-af") == []
  {
    var inputs := [Opt("-i", videoPath), Opt("-i", audioPath)];
    var codecs := [Opt("-c:v", "copy"), Opt("-c:a", "aac")];
    var maps := [Opt("-map", "0:v:0"), Opt("-map", "1:a:0")];
    var closing := [Flag("-shortest"), Flag("-y"), Target(outputPath)];
    var ts := inputs + (codecs + (maps + closing));
    assert ts + [] == ts;
    ValuesSkip(ts, [], "-vf");
    ValuesSkip(ts, [], "-af");
  }

  /** One output. */
  lemma MergeTarget(videoPath: string, audioPath: string, outputPath: string)
    ensures Targets(MergeTokens(videoPath, audioPath, outputPath)) == [outputPath]
  {
    var inputs := [Opt("-i", videoPath), Opt("-i", audioPath)];
    var codecs := [Opt("-c:v", "copy"), Opt("-c:a", "aac")];
    var maps := [Opt("-map", "0:v:0"), Opt("-map", "1:a:0")];
    var closing := [Flag("-shortest"), Flag("-y"), Target(outputPath)];
    var front := inputs + (codecs + (maps + [Flag("-shortest"), Flag("-y")]));
    assert inputs + (codecs + (maps + closing)) == front + [Target(outputPath)];
    TargetsOne(outputPath);
    TargetsSkip(front, [Target(outputPath)]);
  }

  /**
   * The merge run reads the video as input 0 and the audio as input 1, maps
   * exactly `0:v:0` and `1:a:0`, copies the video, encodes the audio as AAC,
   * stops at the shorter stream and writes one output.
   */
  lemma {:induction false} MergeArgsMeaning(videoPath: string, audioPath: string, outputPath: string)
    requires !IsOptionWord(outputPath)
    ensures var ts := Reading(MergeArgs(videoPath, audioPath, outputPath));
      && Values(ts, "-i") == [videoPath, audioPath]
      && Values(ts, "-map") == ["0:v:0", "1:a:0"]
      && Values(ts, "-c:v") == ["copy"] && Values(ts, "-c:a") == ["aac"]
      && Values(ts, "-vf") == [] && Values(ts, "-af") == []
      && Flag("-shortest") in ts && Targets(ts) == [outputPath]
  {
    MergeReading(videoPath, audioPath, outputPath);
    MergeInputs(videoPath, audioPath, outputPath);
    MergeMaps(videoPath, audioPath, outputPath);
    MergeVideoCodec(videoPath, audioPath, outputPath);
    MergeAudioCodec(videoPath, audioPath, outputPath);
    MergeNoFilters(videoPath, audioPath, outputPath);
    MergeTarget(videoPath, audioPath, outputPath);
    assert MergeTokens(videoPath, audioPath, outputPath)[6] == Flag("-shortest");
  }
}

=== FILE: paths.dfy ===
/**
 * Where a job's files live. Paths are strings joined the way Python's
 * `os.path.join` joins them on POSIX: an absolute component replaces what
 * came before, and a '/' is inserted only when the left part does not
 * already end with one.
 */
module Paths {
  import opened Variants

  const UploadFolder: string := "/tmp/downloads"
  const TempFolder: string := "/tmp/n8n_video_processing"

  predicate IsAbsolute(p: string) { |p| > 0 && p[0] == '/' }

  /** `os.path.join(a, b)`. */
  function Join(a: string, b: string): string
  {
    if IsAbsolute(b) then b
    else if a == [] || a[|a| - 1] == '/' then a + b
    else a + "/" + b
  }

  /**
   * An absolute right part replaces the left part; otherwise the left part
   * is kept as a prefix. The result ends with the right part, and is
   * absolute when either part is.
   */
  lemma JoinShape(a: string, b: string)
    ensures IsAbsolute(b) ==> Join(a, b) == b
    ensures !IsAbsolute(b) ==> |a| <= |Join(a, b)| && Join(a, b)[..|a|] == a
    ensures IsAbsolute(a) || IsAbsolute(b) ==> IsAbsolute(Join(a, b))
    ensures |Join(a, b)| >= |b| && Join(a, b)[|Join(a, b)| - |b|..] == b
  {
  }

  /** `p` is `dir` itself or lies below it. */
  predicate Under(p: string, dir: string)
  {
    p == dir || (|p| > |dir| && p[..|dir| + 1] == dir + "/")
  }

  /** The job's working directory `TEMP_FOLDER/workflow_id/variant_name`. */
  function WorkDir(workflowId: string, variantName: string): string
  {
    Join(Join(TempFolder, workflowId), variantName)
  }

  function SourceVideo(workDir: string): string { Join(workDir, "source_video.mp4") }
  function SourceAudio(workDir: string): string { Join(workDir, "source_audio.mp3") }
  function SpeedAudio(workDir: string): string { Join(workDir, "audio_speed.mp3") }
  function FilteredVideo(workDir: string): string { Join(workDir, "video_filtered.mp4") }

  /** The artifact's file name `{workflow_id}_{variant_name}.mp4`. */
  function OutputName(workflowId: string, variantName: string): string
  {
    workflowId + "_" + variantName + ".mp4"
  }

  function OutputFile(workflowId: string, variantName: string): string
  {
    Join(UploadFolder, OutputName(workflowId, variantName))
  }

  /**
   * For an ordinary workflow id (relative, non-empty, no trailing '/') the
   * work directory is the temp folder, the id and the variant, in that order.
   */
  lemma WorkDirLayout(workflowId: string, variantName: string)
    requires workflowId != [] && !IsAbsolute(workflowId) && workflowId[|workflowId| - 1] != '/'
    requires variantName in Catalog
    ensures WorkDir(workflowId, variantName) == TempFolder + "/" + workflowId + "/" + variantName
  {
    NamesArePlain(variantName);
    var mid := Join(TempFolder, workflowId);
    assert mid == TempFolder + "/" + workflowId;
    assert mid[|mid| - 1] == workflowId[|workflowId| - 1];
  }

  /** Every path the worker derives is absolute. */
  lemma DerivedPathsAbsolute(workflowId: string, variantName: string)
    ensures IsAbsolute(WorkDir(workflowId, variantName))
    ensures IsAbsolute(SourceVideo(WorkDir(workflowId, variantName)))
    ensures IsAbsolute(SourceAudio(WorkDir(workflowId, variantName)))
    ensures IsAbsolute(SpeedAudio(WorkDir(workflowId, variantName)))
    ensures IsAbsolute(FilteredVideo(WorkDir(workflowId, variantName)))
    ensures IsAbsolute(OutputFile(workflowId, variantName))
  {
  }

  /** The intermediate files lie inside the work directory and are four distinct paths. */
  lemma IntermediatesInWorkDir(workDir: string)
    requires IsAbsolute(workDir) && workDir[|workDir| - 1] != '/'
    ensures Under(SourceVideo(workDir), workDir) && Under(SourceAudio(workDir), workDir)
    ensures Under(SpeedAudio(workDir), workDir) && Under(FilteredVideo(workDir), workDir)
    ensures SourceVideo(workDir) != workDir && SourceAudio(workDir) != workDir
    ensures SpeedAudio(workDir) != workDir && FilteredVideo(workDir) != workDir
    ensures SourceVideo(workDir) != SourceAudio(workDir) && SourceVideo(workDir) != SpeedAudio(workDir)
    ensures SourceVideo(workDir) != FilteredVideo(workDir) && SourceAudio(workDir) != SpeedAudio(workDir)
    ensures SourceAudio(workDir) != FilteredVideo(workDir) && SpeedAudio(workDir) != FilteredVideo(workDir)
  {
    var names := ["source_video.mp4", "source_audio.mp3", "audio_speed.mp3", "video_filtered.mp4"];
    forall i | 0 <= i < 4
      ensures Join(workDir, names[i]) == workDir + "/" + names[i]
      ensures (workDir + "/" + names[i])[|workDir| + 1..] == names[i]
    {
    }
  }

  /** Two strings that differ at an index inside both cannot lie one under the other. */
  lemma NotUnderIfDiffer(p: string, dir: string, k: nat)
    requires k < |p| && k < |dir| && p[k] != dir[k]
    ensures !Under(p, dir)
  {
  }

  /**
   * As text, the output artifact never lies below the work directory,
   * whatever the workflow id. Where the two paths really lead is another
   * matter once the id holds ".." components (see module Resolution).
   */
  lemma OutputOutsideWorkDir(workflowId: string, variantName: string)
    requires variantName in Catalog
    ensures !Under(OutputFile(workflowId, variantName), WorkDir(workflowId, variantName))
  {
    NamesArePlain(variantName);
    var out, work := OutputFile(workflowId, variantName), WorkDir(workflowId, variantName);
    var name := OutputName(workflowId, variantName);
    if IsAbsolute(workflowId) {
      // Both start with the workflow id; then '_' meets '/' or the variant's first letter.
      var k := |workflowId|;
      assert out == name;
      assert out[k] == '_';
      var mid := Join(TempFolder, workflowId);
      assert mid == workflowId;
      if workflowId[k - 1] == '/' {
        assert work == workflowId + variantName;
        assert work[k] == variantName[0];
      } else {
        assert work == workflowId + "/" + variantName;
        assert work[k] == '/';
      }
      NotUnderIfDiffer(out, work, k);
    } else {
      // One lies below "/tmp/downloads", the other below "/tmp/n8n_video_processing".
      assert !IsAbsolute(name) by {
        if workflowId == [] { assert name[0] == '_'; } else { assert name[0] == workflowId[0]; }
      }
      assert out == UploadFolder + "/" + name;
      assert out[5] == 'd';
      var mid := Join(TempFolder, workflowId);
      assert mid[..|TempFolder|] == TempFolder;
      assert |mid| >= |TempFolder| && work[..|mid|] == mid;
      assert work[5] == mid[5] == TempFolder[5] == 'n';
      NotUnderIfDiffer(out, work, 5);
    }
  }

  /**
   * The `_` join is not injective: different (workflow id, variant name)
   * pairs can name the same artifact, and the later job overwrites it.
   */
  lemma OutputNameCollides(x: string, y: string, z: string)
    ensures OutputName(x + "_" + y, z) == OutputName(x, y + "_" + z)
    ensures OutputFile(x + "_" + y, z) == OutputFile(x, y + "_" + z)
  {
    assert OutputName(x + "_" + y, z) == x + "_" + y + "_" + z + ".mp4" == OutputName(x, y + "_" + z);
  }

  /**
   * Catalog names hold no '_', so for the variants the handler accepts the
   * output name determines both the workflow id and the variant name.
   */
  lemma CatalogOutputNamesDistinct(w: string, v: string, w2: string, v2: string)
    requires v in Catalog && v2 in Catalog
    requires OutputName(w, v) == OutputName(w2, v2)
    ensures w == w2 && v == v2
  {
    NamesArePlain(v);
    NamesArePlain(v2);
    var s, s2 := OutputName(w, v), OutputName(w2, v2);
    assert s[..|s| - 4] == w + "_" + v;
    assert s2[..|s2| - 4] == w2 + "_" + v2;
    LastUnderscore(w, v, w2, v2);
  }

  /** A name without '_' after the last '_' of a text is determined by the text. */
  lemma LastUnderscore(w: string, v: string, w2: string, v2: string)
    requires forall i :: 0 <= i < |v| ==> v[i] != '_'
    requires forall i :: 0 <= i < |v2| ==> v2[i] != '_'
    requires w + "_" + v == w2 + "_" + v2
    ensures w == w2 && v == v2
  {
    var s := w + "_" + v;
    var s2 := w2 + "_" + v2;
    assert forall j | |w| < j < |s| :: s[j] == v[j - |w| - 1];
    assert forall j | |w2| < j < |s2| :: s2[j] == v2[j - |w2| - 1];
    assert s[|w|] == '_' && s2[|w2|] == '_';
    assert |w| == |w2|;
    assert v == s[|s| - |v|..] == s2[|s2| - |v2|..] == v2;
    assert w == s[..|w|] == s2[..|w2|] == w2;
  }

  /**
   * An absolute workflow id that names a place in the upload folder reaches
   * the output file of the relative id it ends with, though the two jobs work
   * in different directories.
   */
  lemma AbsoluteOutputCollides(w: string, v: string)
    requires w != [] && !IsAbsolute(w)
    requires v in Catalog
    ensures OutputFile(UploadFolder + "/" + w, v) == OutputFile(w, v)
    ensures WorkDir(UploadFolder + "/" + w, v) != WorkDir(w, v)
  {
    var a := UploadFolder + "/" + w;
    assert OutputName(a, v) == UploadFolder + "/" + OutputName(w, v);
    assert OutputName(w, v)[0] == w[0];
    NamesArePlain(v);
    var d, d2 := WorkDir(a, v), WorkDir(w, v);
    assert Join(TempFolder, a) == a;
    assert d[..|UploadFolder|] == UploadFolder;
    assert Join(TempFolder, w) == TempFolder + "/" + w;
    assert d2[..|TempFolder|] == TempFolder;
    assert d[5] == 'd' && d2[5] == 'n';
  }

  /** Workflow ids "a" and "a/" share one work directory although their artifacts differ. */
  lemma WorkDirCollides()
    ensures WorkDir("a", "pablo") == WorkDir("a/", "pablo")
    ensures OutputFile("a", "pablo") != OutputFile("a/", "pablo")
  {
  }

  /** An absolute workflow id moves the work directory out of the temp folder. */
  lemma AbsoluteWorkflowEscapes(workflowId: string, variantName: string)
    requires IsAbsolute(workflowId) && workflowId[|workflowId| - 1] != '/'
    requires variantName in Catalog
    ensures WorkDir(workflowId, variantName) == workflowId + "/" + variantName
    ensures OutputFile(workflowId, variantName) == OutputName(workflowId, variantName)
  {
    NamesArePlain(variantName);
  }
}

=== FILE: resolution.dfy ===
/**
 * Where a path actually leads. The kernel splits a path at '/', skips
 * empty and "." components, lets ".." climb one level (never above the
 * root) and descends into any other name. The worker joins its paths as
 * text and never resolves them, so two different texts can name the same
 * place, and a text that does not look like it lies below a directory can
 * lead into it. `Resolve` works on the text alone: it does not ask whether
 * each name it descends through exists as a directory, and it does not
 * follow symbolic links.
 */
module Resolution {
  import opened Variants
  import opened Paths

  /** The components of a path between its '/' separators; an absolute path starts with an empty one. */
  function Split(p: string): (cs: seq<string>)
    ensures |cs| >= 1
  {
    if p == [] then [[]]
    else
      var rest := Split(p[1..]);
      if p[0] == '/' then [[]] + rest else [[p[0]] + rest[0]] + rest[1..]
  }

  /** The place one component leads to from the place reached by the names `at`. */
  function Descend(at: seq<string>, c: string): seq<string>
  {
    if c == "" || c == "." then at
    else if c == ".." then (if at == [] then [] else at[..|at| - 1])
    else at + [c]
  }

  /** Follows the components `cs` from the place reached by the names `at`. */
  function Walk(at: seq<string>, cs: seq<string>): seq<string>
    decreases |cs|
  {
    if cs == [] then at else Walk(Descend(at, cs[0]), cs[1..])
  }

  /** The names from the root to the place an absolute path leads to. */
  function Resolve(p: string): seq<string>
  {
    Walk([], Split(p))
  }

  /** `p` leads to `dir` or to a place below it. */
  predicate Within(p: string, dir: string)
  {
    var r, d := Resolve(p), Resolve(dir);
    |d| <= |r| && r[..|d|] == d
  }

  /** A component that names an entry: not empty, not "." and not "..". */
  predicate Normal(c: string) { c != "" && c != "." && c != ".." }

  /** A workflow id made of ordinary names only: relative, with no empty, "." or ".." component. */
  predicate PlainId(id: string)
  {
    forall c | c in Split(id) :: Normal(c)
  }

  /** Text without a '/' is one component. */
  lemma {:induction false} SplitOne(c: string)
    requires '/' !in c
    ensures Split(c) == [c]
  {
    if c != [] {
      assert '/' !in c[1..] by {
        forall k | 0 <= k < |c[1..]| ensures c[1..][k] != '/' { assert c[1..][k] == c[k + 1]; }
      }
      SplitOne(c[1..]);
      assert [c[0]] + c[1..] == c;
    }
  }

  /** A '/' between two texts separates their components. */
  lemma {:induction false} SplitSlash(a: string, b: string)
    ensures Split(a + "/" + b) == Split(a) + Split(b)
  {
    if a == [] {
      assert a + "/" + b == ['/'] + b;
      assert (['/'] + b)[1..] == b;
    } else {
      var s := a + "/" + b;
      assert s[0] == a[0] && s[1..] == a[1..] + "/" + b;
      SplitSlash(a[1..], b);
    }
  }

  /** The components `cs` with `b` added to the last one. */
  function ExtendLast(cs: seq<string>, b: string): seq<string>
    requires |cs| >= 1
  {
    cs[..|cs| - 1] + [cs[|cs| - 1] + b]
  }

  /** The components `cs` with the character `x` put in front of the first one. */
  function Glue(x: char, cs: seq<string>): seq<string>
    requires |cs| >= 1
  {
    [[x] + cs[0]] + cs[1..]
  }

  /** Text without a '/' added at the end extends the last component. */
  lemma {:induction false} SplitExtend(a: string, b: string)
    requires '/' !in b
    ensures Split(a + b) == ExtendLast(Split(a), b)
  {
    if a == [] {
      assert a + b == b;
      SplitOne(b);
    } else {
      var s := a + b;
      assert s[0] == a[0] && s[1..] == a[1..] + b;
      SplitExtend(a[1..], b);
      var r := Split(a[1..]);
      if a[0] == '/' {
        ExtendBehind([], r, b);
      } else {
        assert Split(a) == Glue(a[0], r);
        assert Split(s) == Glue(a[0], ExtendLast(r, b));
        GlueExtend(a[0], r, b);
      }
    }
  }

  /** Extending the last component is unaffected by a component in front. */
  lemma ExtendBehind(c: string, r: seq<string>, b: string)
    requires |r| >= 1
    ensures ExtendLast([c] + r, b) == [c] + ExtendLast(r, b)
  {
    assert ([c] + r)[..|r|] == [c] + r[..|r| - 1];
  }

  /** Extending the last component and extending the first one at the front commute. */
  lemma GlueExtend(x: char, r: seq<string>, b: string)
    requires |r| >= 1
    ensures Glue(x, ExtendLast(r, b)) == ExtendLast(Glue(x, r), b)
  {
    if |r| == 1 {
      assert [x] + (r[0] + b) == [x] + r[0] + b;
    } else {
      ExtendBehind(r[0], r[1..], b);
      assert r == [r[0]] + r[1..];
    }
  }

  /** Following two lists of components in turn is following their concatenation. */
  lemma {:induction false} WalkAppend(at: seq<string>, xs: seq<string>, ys: seq<string>)
    ensures Walk(at, xs + ys) == Walk(Walk(at, xs), ys)
    decreases |xs|
  {
    if xs == [] {
      assert xs + ys == ys;
    } else {
      assert (xs + ys)[0] == xs[0] && (xs + ys)[1..] == xs[1..] + ys;
      WalkAppend(Descend(at, xs[0]), xs[1..], ys);
    }
  }

  /** Ordinary names only descend. */
  lemma {:induction false} WalkNames(at: seq<string>, xs: seq<string>)
    requires forall c | c in xs :: Normal(c)
    ensures Walk(at, xs) == at + xs
    decreases |xs|
  {
    if xs != [] {
      assert xs[0] in xs;
      WalkNames(at + [xs[0]], xs[1..]);
      assert at + [xs[0]] + xs[1..] == at + xs;
    }
  }

  /** A plain id has no '/' at either end, so the joins insert one on each side. */
  lemma PlainIdShape(id: string)
    requires PlainId(id)
    ensures id != [] && id[0] != '/' && id[|id| - 1] != '/'
  {
    var cs := Split(id);
    assert cs[0] in cs && cs[|cs| - 1] in cs;
    SplitEnds(id);
  }

  /** A path whose first and last components are not empty neither starts nor ends with '/'. */
  lemma SplitEnds(p: string)
    requires Split(p)[0] != "" && Split(p)[|Split(p)| - 1] != ""
    ensures p != [] && p[0] != '/' && p[|p| - 1] != '/'
  {
    if p != [] && p[|p| - 1] == '/' {
      var front := p[..|p| - 1];
      assert p == front + "/" + [];
      SplitSlash(front, []);
    }
  }

  /** The temp folder, as components. */
  lemma TempFolderSplit()
    ensures Split(TempFolder) == ["", "tmp", "n8n_video_processing"]
  {
    TempFolderText();
    FolderNames("tmp", "n8n_video_processing");
  }

  lemma TempFolderText()
    ensures "" + "/" + "tmp" + "/" + "n8n_video_processing" == TempFolder
  {
  }

  /** The upload folder, as components. */
  lemma UploadFolderSplit()
    ensures Split(UploadFolder) == ["", "tmp", "downloads"]
  {
    UploadFolderText();
    FolderNames("tmp", "downloads");
  }

  lemma UploadFolderText()
    ensures "" + "/" + "tmp" + "/" + "downloads" == UploadFolder
  {
  }

  /** An absolute folder of two names splits into them. */
  lemma FolderNames(a: string, b: string)
    requires '/' !in a && '/' !in b
    ensures Split("" + "/" + a + "/" + b) == ["", a, b]
  {
    SplitOne(a);
    SplitOne(b);
    SplitSlash("", a);
    SplitSlash("" + "/" + a, b);
  }

  /** Text put together in four pieces, grouped to the right. */
  lemma Regroup(a: string, b: string, c: string, d: string)
    ensures a + b + c + d == a + (b + c + d)
  {
  }

  /** Text put together in five pieces, the last three grouped. */
  lemma RegroupTail(a: string, b: string, c: string, d: string, e: string)
    ensures a + b + c + d + e == a + b + (c + d + e)
  {
  }

  /** A name without '/' below some path adds that one component. */
  lemma SplitUnder(root: string, id: string, v: string)
    requires Split(v) == [v]
    ensures Split(root + "/" + id + "/" + v) == Split(root) + Split(id) + [v]
  {
    SplitSlash(id, v);
    RegroupTail(root, "/", id, "/", v);
    SplitSlash(root, id + "/" + v);
  }

  /** An absolute path of ordinary names resolves to those names. */
  lemma ResolveNames(p: string, names: seq<string>)
    requires forall c | c in names :: Normal(c)
    requires Split(p) == [""] + names
    ensures Resolve(p) == names
  {
    WalkNames([], names);
    assert ([""] + names)[0] == "" && ([""] + names)[1..] == names;
  }

  /** An absolute root: its first component is the empty one before the leading '/', the others are ordinary names. */
  predicate RootOfNames(root: string)
  {
    Split(root)[0] == "" && forall c | c in Split(root)[1..] :: Normal(c)
  }

  /** Plain names below a root of ordinary names resolve to the root's names followed by theirs. */
  lemma ResolveBelow(root: string, rest: string)
    requires RootOfNames(root) && PlainId(rest)
    ensures Resolve(root + "/" + rest) == Split(root)[1..] + Split(rest)
  {
    var names := Split(root)[1..];
    assert Split(root) == [""] + names;
    SplitBelow(root, names, rest);
    assert forall c | c in names + Split(rest) :: Normal(c);
    ResolveNames(root + "/" + rest, names + Split(rest));
  }

  /** Splitting a path below a root. */
  lemma SplitBelow(root: string, names: seq<string>, rest: string)
    requires Split(root) == [""] + names
    ensures Split(root + "/" + rest) == [""] + (names + Split(rest))
  {
    SplitSlash(root, rest);
  }

  /** A plain id followed by one ordinary name is plain. */
  lemma PlainJoin(id: string, v: string)
    requires PlainId(id) && Split(v) == [v] && Normal(v)
    ensures PlainId(id + "/" + v) && Split(id + "/" + v) == Split(id) + [v]
  {
    SplitSlash(id, v);
  }

  /** Plain names and one more name below a root of ordinary names. */
  lemma ResolveUnder(root: string, id: string, v: string)
    requires RootOfNames(root) && PlainId(id) && Split(v) == [v] && Normal(v)
    ensures Resolve(root + "/" + id + "/" + v) == Split(root)[1..] + Split(id) + [v]
  {
    PlainJoin(id, v);
    RegroupTail(root, "/", id, "/", v);
    ResolveBelow(root, id + "/" + v);
  }

  /** A catalog name is one ordinary component. */
  lemma VariantComponent(variantName: string)
    requires variantName in Catalog
    ensures Split(variantName) == [variantName] && Normal(variantName)
  {
    NamesArePlain(variantName);
    SplitOne(variantName);
  }

  lemma TempNames()
    ensures RootOfNames(TempFolder) && Split(TempFolder)[1..] == ["tmp", "n8n_video_processing"]
  {
    TempFolderSplit();
  }

  lemma UploadNames()
    ensures RootOfNames(UploadFolder) && Split(UploadFolder)[1..] == ["tmp", "downloads"]
  {
    UploadFolderSplit();
  }

  /** For a plain workflow id, the work directory resolves to the temp folder, the id's names and the variant name. */
  lemma PlainWorkDirResolved(id: string, variantName: string)
    requires PlainId(id) && variantName in Catalog
    ensures Resolve(WorkDir(id, variantName)) == ["tmp", "n8n_video_processing"] + Split(id) + [variantName]
  {
    PlainIdShape(id);
    WorkDirLayout(id, variantName);
    VariantComponent(variantName);
    TempNames();
    ResolveUnder(TempFolder, id, variantName);
  }

  /** For a plain workflow id, the output resolves to the upload folder and the components of the output name. */
  lemma PlainOutputResolved(id: string, variantName: string)
    requires PlainId(id) && variantName in Catalog
    ensures var ids := Split(id);
      Resolve(OutputFile(id, variantName))
        == ["tmp", "downloads"] + ids[..|ids| - 1] + [ids[|ids| - 1] + "_" + variantName + ".mp4"]
  {
    PlainOutputName(id, variantName);
    OutputResolvedBelow(id, variantName);
    UploadNames();
  }

  /** For a plain workflow id, the output resolves to the upload folder's names followed by the output name's components. */
  lemma OutputResolvedBelow(id: string, variantName: string)
    requires PlainId(id) && variantName in Catalog
    ensures Resolve(OutputFile(id, variantName)) == Split(UploadFolder)[1..] + Split(OutputName(id, variantName))
  {
    PlainOutputName(id, variantName);
    PlainIdShape(id);
    OutputBelowUploads(id, variantName);
    UploadNames();
    ResolveBelow(UploadFolder, OutputName(id, variantName));
  }

  /** A relative workflow id puts the output name right below the upload folder. */
  lemma OutputBelowUploads(id: string, variantName: string)
    requires id != [] && !IsAbsolute(id)
    ensures OutputFile(id, variantName) == UploadFolder + "/" + OutputName(id, variantName)
  {
    assert OutputName(id, variantName)[0] == id[0];
  }

  /** The suffix the output name adds to the workflow id holds no '/' and does not end in '.'. */
  lemma SuffixPlain(variantName: string)
    requires variantName in Catalog
    ensures var tail := "_" + variantName + ".mp4";
      '/' !in tail && |tail| >= 1 && tail[|tail| - 1] != '.'
  {
    NamesArePlain(variantName);
    var tail := "_" + variantName + ".mp4";
    forall k | 0 <= k < |tail| ensures tail[k] != '/' {
      if 1 <= k < 1 + |variantName| { assert tail[k] == variantName[k - 1]; }
    }
  }

  /** For a plain workflow id the output name is plain too: the id's names, the last one extended by the suffix. */
  lemma PlainOutputName(id: string, variantName: string)
    requires PlainId(id) && variantName in Catalog
    ensures var ids := Split(id);
      && Split(OutputName(id, variantName)) == ids[..|ids| - 1] + [ids[|ids| - 1] + "_" + variantName + ".mp4"]
      && PlainId(OutputName(id, variantName))
  {
    var ids := Split(id);
    SuffixPlain(variantName);
    ExtendPlain(id, "_" + variantName + ".mp4");
    Regroup(id, "_", variantName, ".mp4");
    Regroup(ids[|ids| - 1], "_", variantName, ".mp4");
  }

  /** A suffix without '/' that does not end in '.' keeps a plain id plain, extending its last name. */
  lemma ExtendPlain(id: string, tail: string)
    requires PlainId(id)
    requires '/' !in tail && |tail| >= 1 && tail[|tail| - 1] != '.'
    ensures Split(id + tail) == ExtendLast(Split(id), tail) && PlainId(id + tail)
  {
    SplitExtend(id, tail);
    ExtendedNormal(Split(id), tail);
  }

  /** Extending the last of some ordinary names by a suffix that does not end in '.' keeps them ordinary. */
  lemma ExtendedNormal(ids: seq<string>, tail: string)
    requires |ids| >= 1 && |tail| >= 1 && tail[|tail| - 1] != '.'
    requires forall c | c in ids :: Normal(c)
    ensures forall c | c in ExtendLast(ids, tail) :: Normal(c)
  {
    var last := ids[|ids| - 1] + tail;
    assert last[|last| - 1] == tail[|tail| - 1];
    assert ids[|ids| - 1] in ids;
    forall c | c in ids[..|ids| - 1] + [last] ensures Normal(c) {
      if c in ids[..|ids| - 1] { assert c in ids; }
    }
  }

  /**
   * For a plain workflow id, the output really lies outside the work
   * directory and the four intermediate files really lie inside it.
   */
  lemma PlainOutputOutside(id: string, variantName: string)
    requires PlainId(id) && variantName in Catalog
    ensures !Within(OutputFile(id, variantName), WorkDir(id, variantName))
    ensures var w := WorkDir(id, variantName);
      && Within(SourceVideo(w), w) && Within(SourceAudio(w), w)
      && Within(SpeedAudio(w), w) && Within(FilteredVideo(w), w)
  {
    PlainWorkDirResolved(id, variantName);
    PlainOutputResolved(id, variantName);
    assert Resolve(OutputFile(id, variantName))[1] == "downloads" != Resolve(WorkDir(id, variantName))[1];
    WorkDirEnds(id, variantName);
    IntermediatesWithin(WorkDir(id, variantName));
  }

  /** The four intermediate files lead below an absolute directory that does not end with '/'. */
  lemma IntermediatesWithin(w: string)
    requires IsAbsolute(w) && w[|w| - 1] != '/'
    ensures Within(SourceVideo(w), w) && Within(SourceAudio(w), w)
    ensures Within(SpeedAudio(w), w) && Within(FilteredVideo(w), w)
  {
    InsideWorkDir(w, "source_video.mp4");
    InsideWorkDir(w, "source_audio.mp3");
    InsideWorkDir(w, "audio_speed.mp3");
    InsideWorkDir(w, "video_filtered.mp4");
  }

  /** The work directory is absolute and ends with the variant name's last letter. */
  lemma WorkDirEnds(id: string, variantName: string)
    requires variantName in Catalog
    ensures var w := WorkDir(id, variantName); IsAbsolute(w) && w[|w| - 1] != '/'
  {
    var w := WorkDir(id, variantName);
    NamesArePlain(variantName);
    DerivedPathsAbsolute(id, variantName);
    JoinShape(Join(TempFolder, id), variantName);
    assert w[|w| - |variantName|..] == variantName;
    assert w[|w| - 1] == variantName[|variantName| - 1];
  }

  /** A plain file name joined to a directory leads below that directory. */
  lemma InsideWorkDir(w: string, name: string)
    requires IsAbsolute(w) && w[|w| - 1] != '/'
    requires Normal(name) && '/' !in name
    ensures Within(Join(w, name), w)
  {
    assert !IsAbsolute(name);
    assert Join(w, name) == w + "/" + name;
    SplitSlash(w, name);
    SplitOne(name);
    WalkAppend([], Split(w), [name]);
    assert Walk(Resolve(w), [name]) == Walk(Resolve(w) + [name], []);
  }

  /** One step of a walk through a list of components. */
  lemma WalkAt(at: seq<string>, cs: seq<string>, k: nat)
    requires k < |cs|
    ensures Walk(at, cs[k..]) == Walk(Descend(at, cs[k]), cs[k + 1..])
  {
    assert cs[k..][0] == cs[k] && cs[k..][1..] == cs[k + 1..];
  }

  /** Going down into `x` and `y` and climbing out of `y` again ends in `x`. */
  lemma DownUp(at: seq<string>, x: string, y: string)
    requires Normal(x) && Normal(y)
    ensures Walk(at, [x, y, ".."]) == at + [x]
  {
    var cs := [x, y, ".."];
    assert cs[1..] == [y, ".."] && cs[1..][1..] == [".."] && cs[1..][1..][1..] == [];
    assert Walk(at, cs) == Walk(at + [x], [y, ".."]);
    assert Walk(at + [x], [y, ".."]) == Walk(at + [x] + [y], [".."]);
    assert (at + [x] + [y])[..|at| + 1] == at + [x];
    assert Walk(at + [x] + [y], [".."]) == Walk(at + [x], []);
  }

  /** The empty component leaves the root where it is. */
  lemma SkipRoot(cs: seq<string>)
    ensures Walk([], [""] + cs) == Walk([], cs)
  {
    assert ([""] + cs)[0] == "" && ([""] + cs)[1..] == cs;
  }

  /** Climbing out of `t` and back in through `t` and `v` ends in `v`. */
  lemma ClimbBack(a: string, t: string, v: string)
    requires Normal(a) && Normal(t) && Normal(v)
    ensures Walk([], ["", a, t, "..", t, v, "..", v]) == [a, t, v]
  {
    var xs, ys, zs := [a, t, ".."], [t, v, ".."], [v];
    assert ["", a, t, "..", t, v, "..", v] == [""] + (xs + (ys + zs));
    SkipRoot(xs + (ys + zs));
    WalkAppend([], xs, ys + zs);
    DownUp([], a, t);
    assert [] + [a] == [a];
    WalkAppend([a], ys, zs);
    DownUp([a], t, v);
    assert [a] + [t] == [a, t];
    WalkNames([a, t], zs);
    assert [a, t] + zs == [a, t, v];
  }

  /** Climbing out of `b` and down through `t` and `v` ends in `last` below `v`. */
  lemma ClimbAcross(a: string, b: string, t: string, v: string, last: string)
    requires Normal(a) && Normal(b) && Normal(t) && Normal(v) && Normal(last)
    ensures Walk([], ["", a, b, "..", t, v, last]) == [a, t, v, last]
  {
    var xs, ys := [a, b, ".."], [t, v, last];
    assert ["", a, b, "..", t, v, last] == [""] + (xs + ys);
    SkipRoot(xs + ys);
    WalkAppend([], xs, ys);
    DownUp([], a, b);
    assert [] + [a] == [a];
    WalkNames([a], ys);
    assert [a] + ys == [a, t, v, last];
  }

  /**
   * A relative workflow id that climbs out of the temp folder and back into
   * it, ending on the directory of the variant "pablo".
   */
  const Traversal: string := ".." + "/" + ("n8n_video_processing" + "/" + ("pablo" + "/" + ".."))

  lemma TraversalSplit()
    ensures Split(Traversal) == ["..", "n8n_video_processing", "pablo", ".."]
    ensures Traversal != [] && !IsAbsolute(Traversal) && Traversal[|Traversal| - 1] != '/'
  {
    SplitFour("..", "n8n_video_processing", "pablo", "..");
    SplitEnds(Traversal);
  }

  /** Four components without '/' put together with '/' between them split into themselves. */
  lemma SplitFour(a: string, b: string, c: string, d: string)
    requires '/' !in a && '/' !in b && '/' !in c && '/' !in d
    ensures Split(a + "/" + (b + "/" + (c + "/" + d))) == [a, b, c, d]
  {
    SplitOne(a);
    SplitOne(b);
    SplitOne(c);
    SplitOne(d);
    SplitSlash(c, d);
    SplitSlash(b, c + "/" + d);
    SplitSlash(a, b + "/" + (c + "/" + d));
  }

  /** A root of two names, then an id that climbs out of the second and back into it and into `v`, then `v`. */
  lemma ClimbWorkDir(root: string, id: string, v: string, a: string, t: string)
    requires Split(root) == ["", a, t] && Split(id) == ["..", t, v, ".."] && Split(v) == [v]
    requires Normal(a) && Normal(t) && Normal(v)
    ensures Resolve(root + "/" + id + "/" + v) == [a, t, v]
  {
    SplitUnder(root, id, v);
    assert ["", a, t] + ["..", t, v, ".."] + [v] == ["", a, t, "..", t, v, "..", v];
    ClimbBack(a, t, v);
  }

  /** A root of two names, then the same id extended by a suffix: the last component lands in `v`. */
  lemma ClimbOutput(root: string, id: string, tail: string, a: string, b: string, t: string, v: string)
    requires Split(root) == ["", a, b] && Split(id) == ["..", t, v, ".."]
    requires '/' !in tail && |tail| >= 1 && tail[|tail| - 1] != '.'
    requires Normal(a) && Normal(b) && Normal(t) && Normal(v)
    ensures Resolve(root + "/" + (id + tail)) == [a, t, v, ".." + tail]
  {
    SplitExtend(id, tail);
    var ids := ["..", t, v, ".."];
    assert ids[..3] + [ids[3] + tail] == ["..", t, v, ".." + tail];
    SplitSlash(root, id + tail);
    assert ["", a, b] + ["..", t, v, ".." + tail] == ["", a, b, "..", t, v, ".." + tail];
    var last := ".." + tail;
    assert last[|last| - 1] == tail[|tail| - 1];
    ClimbAcross(a, b, t, v, last);
  }

  /** The work directory of the traversal id and the variant "pablo" resolves to that variant's directory for the id "pablo". */
  lemma TraversalWorkDir()
    ensures Resolve(WorkDir(Traversal, "pablo")) == ["tmp", "n8n_video_processing", "pablo"]
  {
    TraversalSplit();
    WorkDirLayout(Traversal, "pablo");
    VariantComponent("pablo");
    TempFolderSplit();
    ClimbWorkDir(TempFolder, Traversal, "pablo", "tmp", "n8n_video_processing");
  }

  /** The output of the traversal id and the variant "pablo" resolves into that same directory, under the name of the id "..". */
  lemma TraversalOutput()
    ensures Resolve(OutputFile(Traversal, "pablo")) == ["tmp", "n8n_video_processing", "pablo", OutputName("..", "pablo")]
  {
    TraversalSplit();
    var tail := "_" + "pablo" + ".mp4";
    Regroup(Traversal, "_", "pablo", ".mp4");
    Regroup("..", "_", "pablo", ".mp4");
    var name := OutputName(Traversal, "pablo");
    assert name == Traversal + tail && name[0] == Traversal[0];
    SuffixPlain("pablo");
    UploadFolderSplit();
    ClimbOutput(UploadFolder, Traversal, tail, "tmp", "downloads", "n8n_video_processing", "pablo");
  }

  /**
   * The texts of the traversal id's output and work directory say the output
   * lies outside the work directory, but the output really lies inside it,
   * so removing the work directory removes the output too.
   */
  lemma TraversalOutputInWorkDir()
    ensures !Under(OutputFile(Traversal, "pablo"), WorkDir(Traversal, "pablo"))
    ensures Within(OutputFile(Traversal, "pablo"), WorkDir(Traversal, "pablo"))
  {
    OutputOutsideWorkDir(Traversal, "pablo");
    TraversalWorkDir();
    TraversalOutput();
  }
}

=== FILE: variants.dfy ===
/**
 * The variant table: a fixed map from variant name to its voice reference,
 * audio speed and video filter. Speeds are whole hundredths of the playback
 * rate; the filter "none" means "re-encode without a visual filter".
 */
module Variants {
  import opened Wrappers

  datatype Variant = Variant(voiceId: string, speed: nat, filter: string)

  /** The filter text that stands for "no visual filter". */
  const NoFilter: string := "none"

  /** The speeds the encoder's tempo filter accepts, in hundredths: 0.5 to 2.0. */
  const MinTempo: nat := 50
  const MaxTempo: nat := 200

  /** Variant names in the order the table lists them. */
  const Names: seq<string> := ["pablo", "josh", "michael", "ryan", "brad"]

  const Catalog: map<string, Variant> := map[
    "pablo" := Variant("OhisAd2u8Q6qSA4xXAAT", 100, "none"),
    "josh" := Variant("Rsz5u2Huh1hPlPr0oxRQ", 101, "eq=contrast=1.02"),
    "michael" := Variant("dfpTJ8gngbfXIon7bId3", 99, "eq=saturation=1.015"),
    "ryan" := Variant("4e32WqNVWRquDa1OcRYZ", 102, "unsharp=5:5:1.5"),
    "brad" := Variant("f5HLTX707KIM4SzJYzSz", 98, "eq=gamma=1.01")
  ]

  /**
   * Resolves a variant name. Exactly the five configured names resolve; each
   * resolves to a speed between 0.98 and 1.02, inside the tempo filter's
   * range, and only "pablo" runs without a visual filter.
   */
  function Lookup(name: string): (r: Option<Variant>)
    ensures r.Some? <==> name in Names
    ensures r.Some? ==> MinTempo <= 98 <= r.value.speed <= 102 <= MaxTempo
    ensures r.Some? ==> (r.value.filter == NoFilter <==> name == "pablo")
    ensures r.Some? ==> |r.value.voiceId| == 20
  {
    if name in Catalog then Some(Catalog[name]) else None
  }

  /** Every catalog name is a plain path component: non-empty, no '/', no '_', no leading '.'. */
  lemma NamesArePlain(name: string)
    requires name in Catalog
    ensures |name| > 0 && name[0] != '_' && name[0] != '/' && name[0] != '.'
    ensures forall i :: 0 <= i < |name| ==> name[i] != '/' && name[i] != '_'
  {
  }
}

=== FILE: worker.dfy ===
/**
 * The `/merge` request handler: validate the request, resolve the variant,
 * make the work directory, download both inputs, re-time the audio, filter
 * the video, merge them into the shared output folder, check the result,
 * remove the work directory and answer. Each step may end the request early.
 *
 * The disk is a `FileSystem` object; the network, ffmpeg and the removal of
 * the work directory are supplied as an `Env` of outcomes, each a function
 * of exactly the arguments the handler passes, so the model also records
 * which URL was fetched to which path and which command line was run.
 */
module Worker {
  import opened Wrappers
  import opened Variants
  import opened Paths
  import opened Ffmpeg
  import opened Resolution

  /** An entry on disk and the size `os.path.getsize` reports for it. */
  datatype Entry = File(size: nat) | Dir(size: nat)

  /** What `subprocess.run` gives back: an exit code, or an exception (a timeout, a missing binary). */
  datatype ProcOutcome = Exited(code: int) | Raised

  /** A download: whether it reported success, and the bytes it left at the destination, if any. */
  datatype Fetched = Fetched(ok: bool, written: Option<nat>)

  /** An ffmpeg run: how it ended, and the bytes it left at its output path, if any. */
  datatype Encoded = Encoded(outcome: ProcOutcome, written: Option<nat>)

  /**
   * The outside world. `fetch` answers a (url, destination) download,
   * `ffmpeg` answers a command line, `newDirSize` is the size a fresh
   * directory reports, and `removeFails` says whether removing the work
   * directory raises (the handler ignores that).
   */
  datatype Env = Env(
    fetch: (string, string) -> Fetched,
    ffmpeg: seq<string> -> Encoded,
    newDirSize: nat,
    removeFails: bool)

  /**
   * A request body: not JSON at all; a JSON object of string fields; a JSON
   * array, of which only the string elements matter (no other element equals
   * a field name); a JSON string; or a number, `true`, `false` or `null`.
   */
  datatype Request =
    | Malformed
    | Object(fields: map<string, string>)
    | Array(items: seq<string>)
    | Text(text: string)
    | Scalar

  /** `f` occurs in `t` as a substring, which is what Python's `in` tests on strings. */
  predicate Contains(t: string, f: string)
    decreases |t|
  {
    |f| <= |t| && (t[..|f|] == f || Contains(t[1..], f))
  }

  /** `field in data` for a body that supports `in`. */
  predicate Holds(req: Request, field: string)
    requires req.Object? || req.Array? || req.Text?
  {
    match req
    case Object(fields) => field in fields
    case Array(items) => field in items
    case Text(text) => Contains(text, field)
  }

  /** The validation `all(field in data for field in required_fields)`. */
  predicate HasAll(req: Request)
    requires req.Object? || req.Array? || req.Text?
  {
    Holds(req, "video_url") && Holds(req, "audio_url") && Holds(req, "variant_name") && Holds(req, "workflow_id")
  }

  /** The steps of one request, each with the arguments it was given. */
  datatype Step =
    | Validate
    | CheckVariant(name: string)
    | MakeWorkDir(dir: string)
    | FetchVideo(url: string, dest: string)
    | FetchAudio(url: string, dest: string)
    | AdjustSpeed(argv: seq<string>)
    | ApplyFilter(argv: seq<string>)
    | Merge(argv: seq<string>)
    | CheckOutput(path: string)
    | Cleanup(dir: string)

  /** A JSON answer: `{error}`, the catch-all `{error: str(e)}`, or the success record. */
  datatype Body = Error(message: string) | Unexpected | Success(variant: string, outputFile: string, fileSize: nat)

  datatype Response = Response(status: nat, body: Body)

  /** The four fields of a complete request. */
  datatype Job = Job(videoUrl: string, audioUrl: string, variantName: string, workflowId: string)

  function JobOf(fields: map<string, string>): Job
    requires HasAll(Object(fields))
  {
    Job(fields["video_url"], fields["audio_url"], fields["variant_name"], fields["workflow_id"])
  }

  /** The paths one request works with: its work directory, the four files made in it, and the output. */
  datatype Layout = Layout(
    workDir: string,
    sourceVideo: string,
    sourceAudio: string,
    speedAudio: string,
    filteredVideo: string,
    output: string)

  /** The paths the handler derives from the workflow id and the variant name. */
  function JobLayout(job: Job): Layout
  {
    var w := WorkDir(job.workflowId, job.variantName);
    Layout(w, SourceVideo(w), SourceAudio(w), SpeedAudio(w), FilteredVideo(w), OutputFile(job.workflowId, job.variantName))
  }

  /** The four working files lie in the work directory; the output does not. */
  predicate Separated(l: Layout)
  {
    && Under(l.sourceVideo, l.workDir) && Under(l.sourceAudio, l.workDir)
    && Under(l.speedAudio, l.workDir) && Under(l.filteredVideo, l.workDir)
    && !Under(l.output, l.workDir)
  }

  /** A request for a known variant: its fields, the variant's settings, its paths and its three ffmpeg command lines. */
  datatype Plan = Plan(job: Job, variant: Variant, layout: Layout,
                       speedArgv: seq<string>, filterArgv: seq<string>, mergeArgv: seq<string>)

  /** The three ffmpeg command lines of a plan are the ones its paths and variant give. */
  predicate Assembled(p: Plan)
  {
    var l := p.layout;
    && p.speedArgv == SpeedArgs(l.sourceAudio, p.variant.speed, l.speedAudio)
    && p.filterArgv == FilterArgs(l.sourceVideo, p.variant.filter, l.filteredVideo)
    && p.mergeArgv == MergeArgs(l.filteredVideo, l.speedAudio, l.output)
  }

  function JobPlan(job: Job): (p: Plan)
    requires job.variantName in Catalog
    ensures Assembled(p) && p.job == job && p.layout == JobLayout(job)
    ensures p.variant == Catalog[job.variantName]
    ensures MinTempo <= p.variant.speed <= MaxTempo
  {
    var v := Lookup(job.variantName).value;
    var l := JobLayout(job);
    Plan(job, v, l,
         SpeedArgs(l.sourceAudio, v.speed, l.speedAudio),
         FilterArgs(l.sourceVideo, v.filter, l.filteredVideo),
         MergeArgs(l.filteredVideo, l.speedAudio, l.output))
  }

  /** Step `i` of the ten a request for a known variant runs, in order, with its arguments. */
  function PlanStep(p: Plan, i: nat): Step
    requires i < 10
  {
    var l := p.layout;
    if i == 0 then Validate
    else if i == 1 then CheckVariant(p.job.variantName)
    else if i == 2 then MakeWorkDir(l.workDir)
    else if i == 3 then FetchVideo(p.job.videoUrl, l.sourceVideo)
    else if i == 4 then FetchAudio(p.job.audioUrl, l.sourceAudio)
    else if i == 5 then AdjustSpeed(p.speedArgv)
    else if i == 6 then ApplyFilter(p.filterArgv)
    else if i == 7 then Merge(p.mergeArgv)
    else if i == 8 then CheckOutput(l.output)
    else Cleanup(l.workDir)
  }

  /** The first `n` steps of the plan. */
  function PlanPrefix(p: Plan, n: nat): seq<Step>
    requires n <= 10
  {
    if n == 0 then [] else PlanPrefix(p, n - 1) + [PlanStep(p, n - 1)]
  }

  /** The first `n` steps of the plan all passed. */
  predicate PassedThrough(env: Env, p: Plan, n: nat)
    requires n <= 10
  {
    n == 0 || (PassedThrough(env, p, n - 1) && Passed(env, PlanStep(p, n - 1)))
  }

  /** The answer when `s` is the step that failed. */
  function FailureResponse(s: Step): Response
    requires !s.Cleanup?
  {
    match s
    case Validate => Response(400, Error("Missing required fields"))
    case CheckVariant(name) => Response(400, Error("Unknown variant: " + name))
    case MakeWorkDir(_) => Response(500, Unexpected)
    case FetchVideo(_, _) => Response(400, Error("Failed to download video"))
    case FetchAudio(_, _) => Response(400, Error("Failed to download audio"))
    case AdjustSpeed(_) => Response(400, Error("Failed to adjust audio speed"))
    case ApplyFilter(_) => Response(400, Error("Failed to apply video filter"))
    case Merge(_) => Response(400, Error("Failed to merge audio and video"))
    case CheckOutput(_) => Response(400, Error("Output file not created"))
  }

  /** Whether an ffmpeg run counts as a success: exit code 0 and no exception. */
  predicate RanCleanly(o: ProcOutcome) { o == Exited(0) }

  /** Whether a step that calls out to the network or ffmpeg succeeded; other steps pass here. */
  predicate Passed(env: Env, s: Step)
  {
    match s
    case FetchVideo(url, dest) => env.fetch(url, dest).ok
    case FetchAudio(url, dest) => env.fetch(url, dest).ok
    case AdjustSpeed(argv) => RanCleanly(env.ffmpeg(argv).outcome)
    case ApplyFilter(argv) => RanCleanly(env.ffmpeg(argv).outcome)
    case Merge(argv) => RanCleanly(env.ffmpeg(argv).outcome)
    case _ => true
  }

  /** The disk after something leaves `written` bytes at `path`; a directory there is not replaced. */
  function Written(entries: map<string, Entry>, path: string, written: Option<nat>): map<string, Entry>
  {
    if written.None? || (path in entries && entries[path].Dir?) then entries
    else entries[path := File(written.value)]
  }

  /** The disk after removing `dir` and everything below it. */
  function Pruned(entries: map<string, Entry>, dir: string): map<string, Entry>
  {
    map p | p in entries && !Under(p, dir) :: entries[p]
  }

  /** The proper prefixes of `path` that end just before one of its '/' separators: the directories above it. */
  function Ancestors(path: string): set<string>
  {
    set k | 0 < k < |path| && path[k] == '/' :: path[..k]
  }

  /** A file stands at `path` or at a directory above it, so `os.makedirs(path)` raises. */
  predicate Blocked(entries: map<string, Entry>, path: string)
  {
    (path in entries && entries[path].File?) || exists q | q in Ancestors(path) && q in entries :: entries[q].File?
  }

  /** The disk after `os.makedirs(path)` succeeds: every missing directory on the way down to `path` is added. */
  function Made(entries: map<string, Entry>, path: string, size: nat): map<string, Entry>
  {
    map q | q in entries.Keys + Ancestors(path) + {path} :: if q in entries then entries[q] else Dir(size)
  }

  /** Entries neither below `dir` nor at `out` are the same in both maps. */
  ghost predicate SameOutside(before: map<string, Entry>, after: map<string, Entry>, dir: string, out: string)
  {
    forall p :: (p in before || p in after) && !Under(p, dir) && p != out ==>
      p in before && p in after && before[p] == after[p]
  }

  /** The disk, as a map from path to entry. */
  class FileSystem {
    var entries: map<string, Entry>

    constructor (initial: map<string, Entry>)
      ensures entries == initial
    {
      entries := initial;
    }

    /** `os.path.exists`. */
    method Exists(path: string) returns (b: bool)
      ensures b <==> path in entries
    {
      b := path in entries;
    }

    /** `os.path.getsize`. */
    method GetSize(path: string) returns (n: nat)
      requires path in entries
      ensures n == entries[path].size
    {
      n := entries[path].size;
    }

    /**
     * `os.makedirs(path, exist_ok=True)`: raises exactly when a file stands at
     * `path` or above it; otherwise makes `path` and every missing directory
     * above it, and keeps what was there.
     */
    method MakeDirs(path: string, size: nat) returns (ok: bool)
      modifies this
      ensures ok <==> !Blocked(old(entries), path)
      ensures entries == if ok then Made(old(entries), path, size) else old(entries)
    {
      ok := !Blocked(entries, path);
      if ok {
        entries := Made(entries, path, size);
      }
    }

    /** Something leaves `written` bytes at `path`. */
    method Write(path: string, written: Option<nat>)
      modifies this
      ensures entries == Written(old(entries), path, written)
    {
      entries := Written(entries, path, written);
    }

    /** `shutil.rmtree(dir)`. */
    method RemoveTree(dir: string)
      modifies this
      ensures entries == Pruned(old(entries), dir)
    {
      entries := Pruned(entries, dir);
    }
  }

  /** `download_file`: true exactly when the download reported success. */
  method DownloadFile(env: Env, fs: FileSystem, url: string, dest: string) returns (ok: bool)
    modifies fs
    ensures ok == env.fetch(url, dest).ok
    ensures fs.entries == Written(old(fs.entries), dest, env.fetch(url, dest).written)
  {
    var r := env.fetch(url, dest);
    fs.Write(dest, r.written);
    ok := r.ok;
  }

  /** One ffmpeg run: true exactly when it exits with code 0 without raising. */
  method RunFfmpeg(env: Env, fs: FileSystem, argv: seq<string>, outputPath: string) returns (ok: bool)
    modifies fs
    ensures ok <==> env.ffmpeg(argv).outcome == Exited(0)
    ensures fs.entries == Written(old(fs.entries), outputPath, env.ffmpeg(argv).written)
  {
    var r := env.ffmpeg(argv);
    fs.Write(outputPath, r.written);
    match r.outcome {
      case Raised => ok := false;
      case Exited(code) => ok := code == 0;
    }
  }

  /** `adjust_audio_speed`. */
  method AdjustAudioSpeed(env: Env, fs: FileSystem, audioPath: string, speed: nat, outputPath: string)
    returns (ok: bool)
    modifies fs
    ensures ok <==> RanCleanly(env.ffmpeg(SpeedArgs(audioPath, speed, outputPath)).outcome)
    ensures fs.entries == Written(old(fs.entries), outputPath, env.ffmpeg(SpeedArgs(audioPath, speed, outputPath)).written)
  {
    ok := RunFfmpeg(env, fs, SpeedArgs(audioPath, speed, outputPath), outputPath);
  }

  /** `apply_video_filter`. */
  method ApplyVideoFilter(env: Env, fs: FileSystem, videoPath: string, filterSpec: string, outputPath: string)
    returns (ok: bool)
    modifies fs
    ensures ok <==> RanCleanly(env.ffmpeg(FilterArgs(videoPath, filterSpec, outputPath)).outcome)
    ensures fs.entries == Written(old(fs.entries), outputPath, env.ffmpeg(FilterArgs(videoPath, filterSpec, outputPath)).written)
  {
    ok := RunFfmpeg(env, fs, FilterArgs(videoPath, filterSpec, outputPath), outputPath);
  }

  /** `merge_audio_video`. */
  method MergeAudioVideo(env: Env, fs: FileSystem, videoPath: string, audioPath: string, outputPath: string)
    returns (ok: bool)
    modifies fs
    ensures ok <==> RanCleanly(env.ffmpeg(MergeArgs(videoPath, audioPath, outputPath)).outcome)
    ensures fs.entries == Written(old(fs.entries), outputPath, env.ffmpeg(MergeArgs(videoPath, audioPath, outputPath)).written)
  {
    ok := RunFfmpeg(env, fs, MergeArgs(videoPath, audioPath, outputPath), outputPath);
  }

  /**
   * The handler's paths are separated as the pipeline needs, as texts; for a
   * plain workflow id they are also separated where they really lead.
   */
  lemma JobLayoutSeparated(job: Job)
    requires job.variantName in Catalog
    ensures Separated(JobLayout(job))
    ensures var l := JobLayout(job);
      PlainId(job.workflowId) ==>
        && !Within(l.output, l.workDir)
        && Within(l.sourceVideo, l.workDir) && Within(l.sourceAudio, l.workDir)
        && Within(l.speedAudio, l.workDir) && Within(l.filteredVideo, l.workDir)
  {
    if PlainId(job.workflowId) {
      PlainOutputOutside(job.workflowId, job.variantName);
    }
    NamesArePlain(job.variantName);
    var w := WorkDir(job.workflowId, job.variantName);
    JoinShape(Join(TempFolder, job.workflowId), job.variantName);
    assert w[|w| - |job.variantName|..] == job.variantName;
    assert w[|w| - 1] == job.variantName[|job.variantName| - 1];
    DerivedPathsAbsolute(job.workflowId, job.variantName);
    OutputOutsideWorkDir(job.workflowId, job.variantName);
    IntermediatesInWorkDir(w);
  }

  /**
   * The three ffmpeg runs of a request pass their files along: the speed
   * run reads the downloaded audio and writes the re-timed audio at the
   * variant's speed, the filter run reads the downloaded video and writes
   * the filtered video, with `-vf` exactly for a real filter, and the merge
   * reads those two, video first, and writes the output.
   */
  lemma JobCommands(job: Job)
    requires job.variantName in Catalog
    ensures var p := JobPlan(job);
      var l := p.layout;
      var speed := Reading(p.speedArgv);
      var filter := Reading(p.filterArgv);
      var merge := Reading(p.mergeArgv);
      && Values(speed, "-i") == [l.sourceAudio] && Targets(speed) == [l.speedAudio]
      && |Values(speed, "-af")| == 1 && AtempoSpeed(Values(speed, "-af")[0]) == Some(p.variant.speed)
      && Values(filter, "-i") == [l.sourceVideo] && Targets(filter) == [l.filteredVideo]
      && (Values(filter, "-vf") == [] <==> p.variant.filter == NoFilter)
      && Values(merge, "-i") == [l.filteredVideo, l.speedAudio] && Targets(merge) == [l.output]
  {
    var p := JobPlan(job);
    var l := p.layout;
    DerivedPathsAbsolute(job.workflowId, job.variantName);
    SpeedArgsMeaning(l.sourceAudio, p.variant.speed, l.speedAudio);
    FilterArgsMeaning(l.sourceVideo, p.variant.filter, l.filteredVideo);
    MergeArgsMeaning(l.filteredVideo, l.speedAudio, l.output);
  }

  /** Writing below `dir` or at `out` changes nothing else and keeps a directory at `dir`. */
  lemma WrittenInside(entries: map<string, Entry>, path: string, written: Option<nat>, dir: string, out: string)
    requires Under(path, dir) || path == out
    ensures SameOutside(entries, Written(entries, path, written), dir, out)
    ensures dir in entries && entries[dir].Dir? ==> Written(entries, path, written)[dir] == entries[dir]
  {
  }

  lemma SameOutsideTrans(a: map<string, Entry>, b: map<string, Entry>, c: map<string, Entry>, dir: string, out: string)
    requires SameOutside(a, b, dir, out) && SameOutside(b, c, dir, out)
    ensures SameOutside(a, c, dir, out)
  {
  }

  /** The file step `i` writes, for the five steps that write one. */
  function StageFile(l: Layout, i: nat): string
    requires 3 <= i <= 7
  {
    if i == 3 then l.sourceVideo
    else if i == 4 then l.sourceAudio
    else if i == 5 then l.speedAudio
    else if i == 6 then l.filteredVideo
    else l.output
  }

  /** The bytes a download or an ffmpeg run leaves at its destination, if any. */
  function Leaves(env: Env, s: Step): Option<nat>
  {
    match s
    case FetchVideo(url, dest) => env.fetch(url, dest).written
    case FetchAudio(url, dest) => env.fetch(url, dest).written
    case AdjustSpeed(argv) => env.ffmpeg(argv).written
    case ApplyFilter(argv) => env.ffmpeg(argv).written
    case Merge(argv) => env.ffmpeg(argv).written
    case _ => None
  }

  /** How a request ended: the answer, how many planned steps ran, and the disk afterwards. */
  datatype Outcome = Outcome(resp: Response, ran: nat, entries: map<string, Entry>)

  /**
   * The rest of the plan from step `i` (a download, an ffmpeg run or the
   * output check) on the disk `e`: each step that writes leaves its bytes,
   * and the first one that fails ends the request with its own answer.
   */
  function FromStage(env: Env, p: Plan, i: nat, e: map<string, Entry>): (o: Outcome)
    requires 3 <= i <= 8
    decreases 8 - i
    ensures i + 1 <= o.ran <= 10
  {
    var l := p.layout;
    if i <= 7 then
      var s := PlanStep(p, i);
      var e' := Written(e, StageFile(l, i), Leaves(env, s));
      if Passed(env, s) then FromStage(env, p, i + 1, e') else Outcome(FailureResponse(s), i + 1, e')
    else if l.output !in e then
      Outcome(FailureResponse(CheckOutput(l.output)), 9, e)
    else
      Outcome(Response(200, Success(p.job.variantName, l.output, e[l.output].size)), 10,
              if env.removeFails then e else Pruned(e, l.workDir))
  }

  /** The plan after the variant check: make the work directory, then the rest. */
  function Pipeline(env: Env, p: Plan, e: map<string, Entry>): (o: Outcome)
    ensures 3 <= o.ran <= 10
  {
    var w := p.layout.workDir;
    if Blocked(e, w) then Outcome(FailureResponse(MakeWorkDir(w)), 3, e)
    else FromStage(env, p, 3, Made(e, w, env.newDirSize))
  }

  /** The answer, the steps that ran, and the disk afterwards. */
  datatype Reply = Reply(resp: Response, trace: seq<Step>, entries: map<string, Entry>)

  /**
   * The whole handler on the disk `e`. A body that is not JSON makes
   * `request.json` raise; a scalar makes the `in` test raise; an array or a
   * string that holds all four names makes `data['video_url']` raise. The
   * catch-all answers each of these with 500.
   */
  function Handle(env: Env, req: Request, e: map<string, Entry>): Reply
  {
    if req.Malformed? then Reply(Response(500, Unexpected), [], e)
    else if req.Scalar? then Reply(Response(500, Unexpected), [Validate], e)
    else if !HasAll(req) then Reply(FailureResponse(Validate), [Validate], e)
    else if !req.Object? then Reply(Response(500, Unexpected), [Validate], e)
    else
      var name := req.fields["variant_name"];
      match Lookup(name)
      case None => Reply(FailureResponse(CheckVariant(name)), [Validate, CheckVariant(name)], e)
      case Some(_) =>
        var p := JobPlan(JobOf(req.fields));
        var o := Pipeline(env, p, e);
        Reply(o.resp, PlanPrefix(p, o.ran), o.entries)
  }

  /**
   * From step `i` on, with every earlier step passed: the request ends
   * after step `ran - 1`, every step before that one passed, and when it
   * ended early, that step failed.
   */
  lemma {:induction false} FromStageRan(env: Env, p: Plan, i: nat, e: map<string, Entry>)
    requires 3 <= i <= 8 && PassedThrough(env, p, i)
    decreases 8 - i
    ensures var o := FromStage(env, p, i, e);
      && i + 1 <= o.ran <= 10
      && PassedThrough(env, p, o.ran - 1)
      && (o.ran <= 8 ==> !Passed(env, PlanStep(p, o.ran - 1)))
  {
    if i <= 7 {
      var s := PlanStep(p, i);
      if Passed(env, s) {
        FromStageRan(env, p, i + 1, Written(e, StageFile(p.layout, i), Leaves(env, s)));
      }
    }
  }

  /** From step `i` on: the answer is 200 exactly when all ten steps ran, and otherwise the failure of the last step that ran. */
  lemma {:induction false} FromStageAnswer(env: Env, p: Plan, i: nat, e: map<string, Entry>)
    requires 3 <= i <= 8
    decreases 8 - i
    ensures var o := FromStage(env, p, i, e);
      && i + 1 <= o.ran <= 10
      && (o.resp.status == 200 <==> o.ran == 10)
      && (o.ran < 10 ==> o.resp == FailureResponse(PlanStep(p, o.ran - 1)))
  {
    if i <= 7 {
      var s := PlanStep(p, i);
      if Passed(env, s) {
        FromStageAnswer(env, p, i + 1, Written(e, StageFile(p.layout, i), Leaves(env, s)));
      }
    }
  }

  /**
   * From step `i` on: nothing outside the work directory and the output
   * changes, and the work directory survives a request that ends early.
   */
  lemma {:induction false} FromStageOutside(env: Env, p: Plan, i: nat, e: map<string, Entry>)
    requires 3 <= i <= 8 && Separated(p.layout)
    decreases 8 - i
    ensures var o := FromStage(env, p, i, e);
      var l := p.layout;
      && SameOutside(e, o.entries, l.workDir, l.output)
      && (o.ran < 10 && l.workDir in e && e[l.workDir].Dir? ==> l.workDir in o.entries && o.entries[l.workDir].Dir?)
  {
    var l := p.layout;
    if i <= 7 {
      var s := PlanStep(p, i);
      var e' := Written(e, StageFile(l, i), Leaves(env, s));
      WrittenInside(e, StageFile(l, i), Leaves(env, s), l.workDir, l.output);
      if Passed(env, s) {
        FromStageOutside(env, p, i + 1, e');
        SameOutsideTrans(e, e', FromStage(env, p, i + 1, e').entries, l.workDir, l.output);
      }
    }
  }

  /**
   * From step `i` on: the output is missing when its check fails; on
   * success it is present with the size the answer reports, and after a
   * clean removal nothing is left under the work directory.
   */
  lemma {:induction false} FromStageOutput(env: Env, p: Plan, i: nat, e: map<string, Entry>)
    requires 3 <= i <= 8 && Separated(p.layout)
    decreases 8 - i
    ensures var o := FromStage(env, p, i, e);
      var l := p.layout;
      && (o.ran == 9 ==> l.output !in o.entries)
      && (o.ran == 10 ==>
            && l.output in o.entries
            && o.resp.body == Success(p.job.variantName, l.output, o.entries[l.output].size))
      && (o.ran == 10 && !env.removeFails ==> forall q | q in o.entries :: !Under(q, l.workDir))
  {
    if i <= 7 {
      var s := PlanStep(p, i);
      if Passed(env, s) {
        FromStageOutput(env, p, i + 1, Written(e, StageFile(p.layout, i), Leaves(env, s)));
      }
    }
  }

  /** The three checks before the work directory is made always pass. */
  lemma ChecksPass(env: Env, p: Plan)
    ensures PassedThrough(env, p, 3)
  {
    assert PassedThrough(env, p, 0);
    assert Passed(env, PlanStep(p, 0)) && Passed(env, PlanStep(p, 1)) && Passed(env, PlanStep(p, 2));
    assert PassedThrough(env, p, 1);
    assert PassedThrough(env, p, 2);
  }

  /**
   * The plan after the variant check ends after step `ran - 1`: every
   * earlier step passed, the last one failed when it ended before the
   * output check, and the answer is that step's failure unless all ten ran.
   */
  lemma PipelineAnswer(env: Env, p: Plan, e: map<string, Entry>)
    ensures var o := Pipeline(env, p, e);
      && 3 <= o.ran <= 10
      && PassedThrough(env, p, o.ran - 1)
      && (o.resp.status == 200 <==> o.ran == 10)
      && (o.ran < 10 ==> o.resp == FailureResponse(PlanStep(p, o.ran - 1)))
      && (4 <= o.ran <= 8 ==> !Passed(env, PlanStep(p, o.ran - 1)))
  {
    var w := p.layout.workDir;
    ChecksPass(env, p);
    if !Blocked(e, w) {
      var e0 := Made(e, w, env.newDirSize);
      FromStageRan(env, p, 3, e0);
      FromStageAnswer(env, p, 3, e0);
    }
  }

  /**
   * The disk after the plan: when the work directory cannot be made nothing
   * changes; a request that fails later leaves the work directory; the
   * output is missing when its check fails and present with the reported
   * size on success, when the work directory is gone unless its removal
   * failed. Outside the work directory and the output, every entry stays as
   * it was, and the only new entries are directories above the work
   * directory, which even a successful request leaves behind.
   */
  lemma PipelineDisk(env: Env, p: Plan, e: map<string, Entry>)
    requires Separated(p.layout)
    ensures var o := Pipeline(env, p, e);
      var l := p.layout;
      && (o.ran == 3 <==> Blocked(e, l.workDir))
      && (o.ran == 3 ==> o.entries == e)
      && (4 <= o.ran < 10 ==> l.workDir in o.entries && o.entries[l.workDir].Dir?)
      && (o.ran == 9 ==> l.output !in o.entries)
      && (o.ran == 10 ==>
            && l.output in o.entries
            && o.resp.body == Success(p.job.variantName, l.output, o.entries[l.output].size))
      && (o.ran == 10 && !env.removeFails ==> forall q | q in o.entries :: !Under(q, l.workDir))
      && (forall q | q in e && !Under(q, l.workDir) && q != l.output :: q in o.entries && o.entries[q] == e[q])
      && (forall q | q in o.entries && q !in e && !Under(q, l.workDir) && q != l.output ::
            o.ran > 3 && q in Ancestors(l.workDir) && o.entries[q].Dir?)
  {
    var l := p.layout;
    var w := l.workDir;
    if !Blocked(e, w) {
      var e0 := Made(e, w, env.newDirSize);
      FromStageAnswer(env, p, 3, e0);
      FromStageOutside(env, p, 3, e0);
      FromStageOutput(env, p, 3, e0);
      MadeOutside(e, w, env.newDirSize, l.output);
    }
  }

  /** Making the work directory keeps every entry and adds only directories at it or above it. */
  lemma MadeOutside(e: map<string, Entry>, w: string, size: nat, out: string)
    requires !Blocked(e, w)
    ensures var e0 := Made(e, w, size);
      && w in e0 && e0[w].Dir?
      && (forall q | q in e :: q in e0 && e0[q] == e[q])
      && (forall q | q in e0 && q !in e :: (q == w || q in Ancestors(w)) && e0[q].Dir?)
  {
  }

  /**
   * The steps after the variant check, for a known variant, as the handler
   * runs them; `ran` is the number of planned steps that ran.
   */
  method RunJob(env: Env, fs: FileSystem, p: Plan) returns (resp: Response, ran: nat)
    requires Assembled(p)
    modifies fs
    ensures Outcome(resp, ran, fs.entries) == Pipeline(env, p, old(fs.entries))
  {
    var l := p.layout;
    var made := fs.MakeDirs(l.workDir, env.newDirSize);
    if !made {
      resp, ran := Response(500, Unexpected), 3;
      return;
    }
    ghost var e := fs.entries;
    assert Pipeline(env, p, old(fs.entries)) == FromStage(env, p, 3, e);

    var ok := DownloadFile(env, fs, p.job.videoUrl, l.sourceVideo);
    if !ok {
      resp, ran := Response(400, Error("Failed to download video")), 4;
      return;
    }
    assert FromStage(env, p, 3, e) == FromStage(env, p, 4, fs.entries);

    e := fs.entries;
    ok := DownloadFile(env, fs, p.job.audioUrl, l.sourceAudio);
    if !ok {
      resp, ran := Response(400, Error("Failed to download audio")), 5;
      return;
    }
    assert FromStage(env, p, 4, e) == FromStage(env, p, 5, fs.entries);
    resp, ran := Encode(env, fs, p);
  }

  /** The three ffmpeg runs and what follows them. */
  method Encode(env: Env, fs: FileSystem, p: Plan) returns (resp: Response, ran: nat)
    requires Assembled(p)
    modifies fs
    ensures Outcome(resp, ran, fs.entries) == FromStage(env, p, 5, old(fs.entries))
  {
    var l := p.layout;
    ghost var e := fs.entries;
    var ok := AdjustAudioSpeed(env, fs, l.sourceAudio, p.variant.speed, l.speedAudio);
    if !ok {
      resp, ran := Response(400, Error("Failed to adjust audio speed")), 6;
      return;
    }
    assert FromStage(env, p, 5, e) == FromStage(env, p, 6, fs.entries);

    e := fs.entries;
    ok := ApplyVideoFilter(env, fs, l.sourceVideo, p.variant.filter, l.filteredVideo);
    if !ok {
      resp, ran := Response(400, Error("Failed to apply video filter")), 7;
      return;
    }
    assert FromStage(env, p, 6, e) == FromStage(env, p, 7, fs.entries);

    e := fs.entries;
    ok := MergeAudioVideo(env, fs, l.filteredVideo, l.speedAudio, l.output);
    if !ok {
      resp, ran := Response(400, Error("Failed to merge audio and video")), 8;
      return;
    }
    assert FromStage(env, p, 7, e) == FromStage(env, p, 8, fs.entries);
    resp, ran := Finish(env, fs, p);
  }

  /** The output check, the size read and the removal of the work directory. */
  method Finish(env: Env, fs: FileSystem, p: Plan) returns (resp: Response, ran: nat)
    modifies fs
    ensures Outcome(resp, ran, fs.entries) == FromStage(env, p, 8, old(fs.entries))
  {
    var l := p.layout;
    var present := fs.Exists(l.output);
    if !present {
      resp, ran := Response(400, Error("Output file not created")), 9;
      return;
    }
    var size := fs.GetSize(l.output);
    if !env.removeFails {
      fs.RemoveTree(l.workDir);
    }
    resp, ran := Response(200, Success(p.job.variantName, l.output, size)), 10;
  }

  /**
   * `process_variant`, the `/merge` handler: the answer, the steps that ran
   * and the disk afterwards are those `Handle` describes.
   */
  method ProcessVariant(env: Env, fs: FileSystem, req: Request) returns (resp: Response, trace: seq<Step>)
    modifies fs
    ensures Reply(resp, trace, fs.entries) == Handle(env, req, old(fs.entries))
  {
    if req.Malformed? {
      // `request.json` raises, and the catch-all answers 500.
      resp, trace := Response(500, Unexpected), [];
      return;
    }
    trace := [Validate];
    if req.Scalar? {
      // `in` on a number, a boolean or `None` raises.
      resp := Response(500, Unexpected);
      return;
    }
    if !HasAll(req) {
      resp := Response(400, Error("Missing required fields"));
      return;
    }
    if !req.Object? {
      // `data['video_url']` on a list or a string raises.
      resp := Response(500, Unexpected);
      return;
    }
    var job := JobOf(req.fields);
    trace := trace + [CheckVariant(job.variantName)];
    var found := Lookup(job.variantName);
    if found.None? {
      resp := Response(400, Error("Unknown variant: " + job.variantName));
      return;
    }
    var p := JobPlan(job);
    var ran;
    resp, ran := RunJob(env, fs, p);
    trace := PlanPrefix(p, ran);
  }

  /** Each step of a plan prefix is the planned step at that index. */
  lemma {:induction false} PlanPrefixAt(p: Plan, n: nat, i: nat)
    requires i < n <= 10
    ensures |PlanPrefix(p, n)| == n && PlanPrefix(p, n)[i] == PlanStep(p, i)
  {
    if i < n - 1 {
      PlanPrefixAt(p, n - 1, i);
    }
    PlanPrefixLength(p, n - 1);
  }

  lemma {:induction false} PlanPrefixLength(p: Plan, n: nat)
    requires n <= 10
    ensures |PlanPrefix(p, n)| == n
  {
    if n > 0 {
      PlanPrefixLength(p, n - 1);
    }
  }

  /**
   * A request that is not JSON gets 500 and runs nothing; a scalar body gets
   * 500; a body missing a field gets 400 "Missing required fields"; an array
   * or a string holding every field name gets 500; an object naming an
   * unknown variant gets 400 "Unknown variant: <name>". None of them runs a
   * step past those checks or touches the disk.
   */
  lemma HandleRejects(env: Env, req: Request, e: map<string, Entry>)
    ensures var r := Handle(env, req, e);
      && (req.Malformed? ==> r == Reply(Response(500, Unexpected), [], e))
      && (req.Scalar? ==> r == Reply(Response(500, Unexpected), [Validate], e))
      && ((req.Object? || req.Array? || req.Text?) && !HasAll(req) ==>
            r == Reply(Response(400, Error("Missing required fields")), [Validate], e))
      && ((req.Array? || req.Text?) && HasAll(req) ==> r == Reply(Response(500, Unexpected), [Validate], e))
      && (req.Object? && HasAll(req) && req.fields["variant_name"] !in Catalog ==>
            var name := req.fields["variant_name"];
            r == Reply(Response(400, Error("Unknown variant: " + name)), [Validate, CheckVariant(name)], e))
  {
  }

  /**
   * A complete request for a known variant runs the plan for its job: the
   * answer and the disk are the plan's, and the trace is the plan's steps
   * in order up to the one that ended the request.
   */
  lemma HandleKnown(env: Env, req: Request, e: map<string, Entry>)
    requires req.Object? && HasAll(req) && req.fields["variant_name"] in Catalog
    ensures var p := JobPlan(JobOf(req.fields));
      var o := Pipeline(env, p, e);
      var r := Handle(env, req, e);
      && Separated(p.layout)
      && r == Reply(o.resp, r.trace, o.entries)
      && |r.trace| == o.ran
      && (forall k | 0 <= k < o.ran :: r.trace[k] == PlanStep(p, k))
  {
    var job := JobOf(req.fields);
    var p := JobPlan(job);
    JobLayoutSeparated(job);
    PipelineAnswer(env, p, e);
    var o := Pipeline(env, p, e);
    HandleRuns(env, req, e);
    forall k | 0 <= k < o.ran
      ensures |PlanPrefix(p, o.ran)| == o.ran && PlanPrefix(p, o.ran)[k] == PlanStep(p, k)
    {
      PlanPrefixAt(p, o.ran, k);
    }
    PlanPrefixLength(p, o.ran);
  }

  /** A complete request for a known variant gets the plan's answer and disk, and the plan's first steps as its trace. */
  lemma HandleRuns(env: Env, req: Request, e: map<string, Entry>)
    requires req.Object? && HasAll(req) && req.fields["variant_name"] in Catalog
    ensures var p := JobPlan(JobOf(req.fields));
      var o := Pipeline(env, p, e);
      Handle(env, req, e) == Reply(o.resp, PlanPrefix(p, o.ran), o.entries)
  {
    assert HasAll(req);
    assert Lookup(req.fields["variant_name"]).Some?;
  }
}

=== FILE: wrappers.dfy ===
/** Optional values, used wherever the service may or may not have something. */
module Wrappers {
  datatype Option<+T> = None | Some(value: T)
}
